=== FILE: README.md ===
# CloudRoboticsFX partition processor — a Dafny model

This project models the per-partition message pipeline of the CloudRoboticsFX
worker (`RoboticsEventProcessor`), as a pure state machine. It covers:

- the batch loop, which advances the read checkpoint before each message;
- the retry and containment loop around one message. A SQL failure counts as
  transient when one of its error numbers is in a fixed list. Retries are
  bounded by a per-message counter, and the retry flag `sqlex_on` lives at
  batch scope;
- the header gate and the routing classifier (`CALL`, `D2D`, `CONTROL`,
  `LOG`, warnings W001–W004);
- device routing, or the default target;
- application routing (`CallApps`), which involves:
  - the application-master and application-router TTL caches;
  - plugin staging, with its canonical and per-partition freshness records;
  - the partition → execution-context map and its unload rule;
  - the development-mode plugin path;
- the `CONTROL`/`ReqAppInfo` reply (`ProcessControlMessage`);
- dispatch through one of two channels, with optional audit mirroring.

Collaborators are oracles. A `World` holds what the clock, the metadata
store, the device router, the blob store, the plugin host, the plugin and the
senders answer during one attempt. A `Codec` holds the JSON decoding, the
header schema validation and the parse of the device info blob; one `Codec`
is shared by all attempts of a message (an assumption, listed under "Left
out"). Effects
are recorded as an event log (`Trace.Event`): trace entries, plus the calls
made on collaborators.

The modules follow the program's structure:

| Module | Covers |
|---|---|
| `Faults` | exceptions and the transient-error list |
| `Messages` | message, header, header marker |
| `Trace` | log codes and events |
| `TtlCache` | the two caches |
| `Records` | master and router records |
| `Staging` | `CopyBlobToLocalDir` and the dev-mode path |
| `Routing` | the classifier |
| `Retry` | the catch block and loop test |
| `Processor` | one attempt |
| `PartitionLoop` | the `while` and `foreach` loops |
| `ProcessorFacts`, `LoopFacts` | properties over several members |

Behaviour of the code worth knowing when reading the model (line numbers in
`RoboticsEventProcessor.cs` unless stated):

- Cache freshness is inclusive: an entry is served while its expiry is at or
  after the clock (lines 506 and 539).
- The partition's context is unloaded when the partition copy is stale and a
  canonical record exists (lines 610-620). It does not depend on the
  canonical copy being stale.
- Staging is called outside any `try` of `CallApps` (lines 437-443), so its
  failures reach the retry loop's `catch` unwrapped. Staging itself makes no
  SQL call: it uses the blob download (line 657), `File.Move`, `File.Copy`
  and `Directory.CreateDirectory`. So a staging failure is never transient:
  the `catch` clears the flag, writes E001 and leaves the message. Only
  context creation, instantiation, the plugin call and the CONTROL reply wrap
  their failures.
- The retry flag is cleared only in the `catch` block (line 289). Once an
  attempt has failed transiently, later attempts that complete without an
  exception run the message again; the loop is left only when a later caught
  exception clears the flag, a non-transient one or the 21st transient one.
- The retry counter is compared with `> 20` (lines 60 and 306), so a message
  is abandoned on its 21st transient failure, after 20 retries.
- A payload shorter than 100 UTF-16 code units makes `Substring(0, 100)`
  throw outside the per-message `catch` (line 131), which ends the whole
  batch with E999 (line 357).
- A payload that carries the marker but is not a JSON object ends the batch
  with E999 too. The parse at line 157 throws before the document variable is
  set. The `catch` then logs E001 with that null document (line 324), and
  the logger dereferences it (`CloudRoboticsUtil/CloudRoboticsUtil/RbTraceLog.cs`,
  line 67). The second exception escapes to line 357. No E001 is written.
- On the application-routing path the body property is cast to an object
  (line 225) after device routing (lines 207-213). A body that is not an
  object makes the cast throw; the exception is caught as a non-SQL failure,
  so E001 is written and no cache, router record, staging or plugin is
  reached. An absent body is serialised as `null` and passed on.
- A missing header marker is logged as an info entry (line 135), not as a
  warning.

## Model

| member | source | states |
|---|---|---|
| Faults.ScanErrors | CloudRoboticsFX/CloudRoboticsFX.Worker/RoboticsEventProcessor.cs:291-300 | the scan over a SQL exception's errors finds a retryable one iff some error number is in the retry list |
| Faults.IsTransient | CloudRoboticsFX/CloudRoboticsFX.Worker/RoboticsEventProcessor.cs:291-300 | reference definition: a SQL failure at least one of whose error numbers is on the retry list (20, 64, 233, 10053, 10054, 10060, 40143, 40197, 40501, 40613) |
| Faults.Wrap | CloudRoboticsFX/CloudRoboticsFX.Worker/RoboticsEventProcessor.cs:474-478 | a failure wrapped into an application exception is never transient, whatever it wrapped |
| Messages.IndexOf | CloudRoboticsFX/CloudRoboticsFX.Worker/RoboticsEventProcessor.cs:132 | returns -1 iff the marker occurs nowhere, otherwise the position of its first occurrence |
| Messages.HasHeaderMarker | CloudRoboticsFX/CloudRoboticsFX.Worker/RoboticsEventProcessor.cs:131-132 | the header gate: the marker occurs in the first 100 UTF-16 code units; a shorter payload has no window at all |
| Messages.HeaderMarkerWithinWindow | CloudRoboticsFX/CloudRoboticsFX.Worker/RoboticsEventProcessor.cs:130-137 | the header gate passes iff the marker lies wholly within the first 100 characters |
| Messages.DefaultTarget | CloudRoboticsFX/CloudRoboticsFX.Worker/RoboticsEventProcessor.cs:214-218 | without device routing the target becomes the source device with target type Device, and no other header field changes |
| Messages.Retarget | CloudRoboticsFX/CloudRoboticsFX.Worker/RoboticsEventProcessor.cs:207-213 | device routing sets the target device and type to the router's answer, and no other header field changes |
| TtlCache.Get | CloudRoboticsFX/CloudRoboticsFX.Worker/RoboticsEventProcessor.cs:498-528 | the store is consulted iff the entry is missing or expired; a fetched record overwrites the entry and is returned; a null record or an exception fails and leaves the cache unchanged |
| TtlCache.Fresh | CloudRoboticsFX/CloudRoboticsFX.Worker/RoboticsEventProcessor.cs:503-508 | reference definition of a cache hit: the key is present and its expiry is at or after the clock |
| TtlCache.GetTwiceWithinTtl | CloudRoboticsFX/CloudRoboticsFX.Worker/RoboticsEventProcessor.cs:503-508 | a second lookup within the expiry window returns the first lookup's record without a second fetch |
| TtlCache.ExpiryInstantStillServed | CloudRoboticsFX/CloudRoboticsFX.Worker/RoboticsEventProcessor.cs:506 | an entry whose expiry equals the clock is still served from the cache |
| TtlCache.GetKeepsOtherKeys | CloudRoboticsFX/CloudRoboticsFX.Worker/RoboticsEventProcessor.cs:515-518 | a lookup touches no other key of the cache |
| TtlCache.RouterKey | CloudRoboticsFX/CloudRoboticsFX.Worker/RoboticsEventProcessor.cs:534 | the router key starts with the application id and an underscore, followed by the processing id; a null id adds nothing |
| TtlCache.RouterKeyCollides | CloudRoboticsFX/CloudRoboticsFX.Worker/RoboticsEventProcessor.cs:534 | the router key is not injective: ("a_b","c") and ("a","b_c") share a key, as do a null and an empty processing id |
| TtlCache.RouterKeyInjectiveForFixedApp | CloudRoboticsFX/CloudRoboticsFX.Worker/RoboticsEventProcessor.cs:534 | for a fixed application id, distinct processing ids give distinct keys |
| Staging.Combine | CloudRoboticsFX/CloudRoboticsFX.Worker/RoboticsEventProcessor.cs:569 | path joining: the directory, a backslash unless it already ends in one, then the name (its shape is stated by CombineJoins) |
| Staging.CombineJoins | CloudRoboticsFX/CloudRoboticsFX.Worker/RoboticsEventProcessor.cs:569 | a joined path ends with the name and starts with the directory, with one backslash between them |
| Staging.PartitionKey | CloudRoboticsFX/CloudRoboticsFX.Worker/RoboticsEventProcessor.cs:576 | the partition record key "P" + partition + "_" + file name is longer than the file name, so it never equals that plugin's own canonical key |
| Staging.UnloadBeforeLoad | CloudRoboticsFX/CloudRoboticsFX.Worker/RoboticsEventProcessor.cs:610-620 | the unload fails iff a canonical record exists and the partition's entry holds no context; otherwise the entry, if present, is emptied and all others kept |
| Staging.Refresh | CloudRoboticsFX/CloudRoboticsFX.Worker/RoboticsEventProcessor.cs:622-687 | downloads iff the canonical copy is stale; on success both freshness records match the router record; contexts and unrelated records are untouched |
| Staging.Load | CloudRoboticsFX/CloudRoboticsFX.Worker/RoboticsEventProcessor.cs:610-695 | unloads iff a canonical record exists and the partition has a context; on success both records are current and, when it unloads, the partition's entry is emptied |
| Staging.Stage | CloudRoboticsFX/CloudRoboticsFX.Worker/RoboticsEventProcessor.cs:563-698 | a current partition copy means nothing happens; otherwise, on success both records match the router record, the unload and download happen under their stated conditions, and no other partition or record changes |
| Staging.StagingLogsNothing | CloudRoboticsFX/CloudRoboticsFX.Worker/RoboticsEventProcessor.cs:563-698 | staging writes no trace entry: every event it records is a call on a collaborator |
| Staging.StageTwiceIsNoOp | CloudRoboticsFX/CloudRoboticsFX.Worker/RoboticsEventProcessor.cs:601-607 | staging again with an unchanged router record after a success changes nothing and does nothing |
| Staging.RefreshStaleCanonical | CloudRoboticsFX/CloudRoboticsFX.Worker/RoboticsEventProcessor.cs:622-687 | a stale canonical copy whose download and copy succeed is archived (when a record exists), downloaded and copied, in that order, with the contexts untouched |
| Staging.StageUnloadsThenRefreshes | CloudRoboticsFX/CloudRoboticsFX.Worker/RoboticsEventProcessor.cs:601-620 | with a stale partition copy, a canonical record and a context held, staging is the unload followed by the refresh over the emptied entry |
| Staging.NewRegistrationRestages | CloudRoboticsFX/CloudRoboticsFX.Worker/RoboticsEventProcessor.cs:610-687 | a new registration time unloads, archives, downloads and copies, in that order |
| Staging.UnloadWithoutDownload | CloudRoboticsFX/CloudRoboticsFX.Worker/RoboticsEventProcessor.cs:610-620 | a current canonical copy with a stale partition copy still unloads the context, without a download |
| Staging.FailedDownloadBlocksNextStaging | CloudRoboticsFX/CloudRoboticsFX.Worker/RoboticsEventProcessor.cs:614-660 | a download failure after the unload leaves the partition with no context, and the next staging of that plugin fails in the unload |
| Staging.CanonicalRecordOverwritesPartitionRecord | CloudRoboticsFX/CloudRoboticsFX.Worker/RoboticsEventProcessor.cs:576-687 | staging a plugin whose file name is another plugin's partition key (like "P1_x.dll" for "x.dll" in partition 1) with a stale canonical copy overwrites that partition's record of the other plugin with its own |
| Staging.DevPluginPath | CloudRoboticsFX/CloudRoboticsFX.Worker/RoboticsEventProcessor.cs:419-430 | the dev path is the local directory, a backslash only if it lacks one, and the file name; an empty directory fails |
| Staging.DevStaged | CloudRoboticsFX/CloudRoboticsFX.Worker/RoboticsEventProcessor.cs:419-436 | in dev mode the plugin file is the dev path, and the base and private directories are both the dev directory less any trailing backslash; an empty directory fails |
| Routing.RawGate | CloudRoboticsFX/CloudRoboticsFX.Worker/RoboticsEventProcessor.cs:160-175 | a header object without a routing type is skipped with a warning, LOG is skipped silently, and anything else proceeds |
| Routing.PlanFor | CloudRoboticsFX/CloudRoboticsFX.Worker/RoboticsEventProcessor.cs:181-203 | device routing iff D2D; app routing iff CALL, or D2D with a processing id other than ""; only CALL, D2D and CONTROL are accepted |
| Routing.ControlActionFor | CloudRoboticsFX/CloudRoboticsFX.Worker/RoboticsEventProcessor.cs:236-251 | a null processing id is missing; only ReqAppInfo is answered |
| Routing.NullProcessingIdStillAppRouted | CloudRoboticsFX/CloudRoboticsFX.Worker/RoboticsEventProcessor.cs:186-193 | a D2D message with a null processing id is app-routed |
| Routing.EmptyControlIdIsBad | CloudRoboticsFX/CloudRoboticsFX.Worker/RoboticsEventProcessor.cs:238-250 | an empty CONTROL processing id is a bad id (W004), not a missing one (W003) |
| Retry.AfterAttempt | CloudRoboticsFX/CloudRoboticsFX.Worker/RoboticsEventProcessor.cs:287-332 | a caught exception sets the flag iff it is transient within the bound, counting transient failures; E001 is logged exactly when the flag ends cleared after a catch; the loop repeats iff the flag is set and the attempt was not a skip |
| Retry.Drive | CloudRoboticsFX/CloudRoboticsFX.Worker/RoboticsEventProcessor.cs:128-333 | the loop runs again after every attempt it used but the last, and the decision after that last one (the controller run over all earlier outcomes) is how it ended and the controller it left; it uses at least one attempt once it ends, and all of them if it is still running |
| Retry.TransientFailuresExhaustRetries | CloudRoboticsFX/CloudRoboticsFX.Worker/RoboticsEventProcessor.cs:302-315 | transient failures from any count up to the bound are retried one by one, then abandoned with E001 |
| Retry.TwentyFirstTransientFailureAbandons | CloudRoboticsFX/CloudRoboticsFX.Worker/RoboticsEventProcessor.cs:302-315 | the 21st transient failure abandons the message after 20 retry entries and exactly one E001 |
| Retry.CompletedAttemptsKeepLooping | CloudRoboticsFX/CloudRoboticsFX.Worker/RoboticsEventProcessor.cs:329-332 | with the flag set, completed attempts never leave the loop |
| Retry.SuccessAfterTransientFailureDoesNotLeave | CloudRoboticsFX/CloudRoboticsFX.Worker/RoboticsEventProcessor.cs:289-332 | a message that fails transiently at most 20 times and then only completes is neither abandoned nor left |
| Retry.NonTransientFailureAbandons | CloudRoboticsFX/CloudRoboticsFX.Worker/RoboticsEventProcessor.cs:317-325 | a non-transient failure abandons the message at once with one E001 |
| Retry.ServerBusyIsRetried | CloudRoboticsFX/CloudRoboticsFX.Worker/RoboticsEventProcessor.cs:76-79 | a SQL failure reporting the server busy (40501) at any position among its errors, within the bound, sets the flag and runs the message again after one retry entry |
| Retry.AbandonLoggedOnce | CloudRoboticsFX/CloudRoboticsFX.Worker/RoboticsEventProcessor.cs:306-325 | E001 is logged at most once per message, exactly when the loop is left after a caught exception |
| Processor.MasterInfo | CloudRoboticsFX/CloudRoboticsFX.Worker/RoboticsEventProcessor.cs:498-528 | the master record comes from the cache when fresh, otherwise it is fetched and cached; only the master cache changes |
| Processor.RouterInfo | CloudRoboticsFX/CloudRoboticsFX.Worker/RoboticsEventProcessor.cs:530-561 | the router record is looked up under the concatenated key, fetched when stale and cached; only the router cache changes |
| Processor.PluginLocation | CloudRoboticsFX/CloudRoboticsFX.Worker/RoboticsEventProcessor.cs:419-448 | dev mode touches no staging state and fails only on an empty directory; otherwise staging decides |
| Processor.HostPlugin | CloudRoboticsFX/CloudRoboticsFX.Worker/RoboticsEventProcessor.cs:455-479 | an existing context is reused; otherwise a context whose creation fails is not registered, and one created is registered even if instantiation then fails; a failure is logged as E003 and is never transient; no other partition changes |
| Processor.PreparePlugin | CloudRoboticsFX/CloudRoboticsFX.Worker/RoboticsEventProcessor.cs:398-479 | master, router and staging failures come back unchanged, each stopping what follows; a later failure is the host's, logged as E003 and never transient; once hosted both records are cached, the partition holds a context and, outside dev mode, its copy of the plugin is current |
| Processor.CallApps | CloudRoboticsFX/CloudRoboticsFX.Worker/RoboticsEventProcessor.cs:398-496 | a failure before the call comes back as it was; the plugin is called once, with its file name as processing stack and the message body; its failure is logged as E002 right after the call and is never transient; its output is what is returned |
| Processor.ProcessControlMessage | CloudRoboticsFX/CloudRoboticsFX.Worker/RoboticsEventProcessor.cs:375-396 | the reply is exactly one message with the given header and the parsed device info; any failure logs E004 and is never transient |
| Processor.RoutedHeader | CloudRoboticsFX/CloudRoboticsFX.Worker/RoboticsEventProcessor.cs:205-218 | D2D takes the router's target, anything else the default target; routing type and processing id are kept |
| Processor.Route | CloudRoboticsFX/CloudRoboticsFX.Worker/RoboticsEventProcessor.cs:205-252 | D2D without app routing forwards exactly itself; app routing casts the body first and, when it is not an object, fails with a non-SQL error after device routing and before any cache or plugin; otherwise it sends the plugin's output; only CONTROL without ReqAppInfo is dropped; a CONTROL reply is one message to the source; no E001 is written |
| Processor.ChannelFor | CloudRoboticsFX/CloudRoboticsFX.Worker/RoboticsEventProcessor.cs:259-272 | the storage queue when queue sending is enabled, otherwise the IoT hub, for every outgoing message |
| Processor.Mirror | CloudRoboticsFX/CloudRoboticsFX.Worker/RoboticsEventProcessor.cs:276-284 | each outgoing message is mirrored in order, tagged with the transport device id, up to the first failure |
| Processor.Deliver | CloudRoboticsFX/CloudRoboticsFX.Worker/RoboticsEventProcessor.cs:254-284 | all messages go through the one configured channel, then are mirrored when auditing is on |
| Processor.Finish | CloudRoboticsFX/CloudRoboticsFX.Worker/RoboticsEventProcessor.cs:235-286 | a classified message is skipped iff it is CONTROL without ReqAppInfo |
| Processor.Unhandled | CloudRoboticsFX/CloudRoboticsFX.Worker/RoboticsEventProcessor.cs:127-160 | the messages the per-message handler does not contain: a payload shorter than the window, or a marked one from which no JSON document is read |
| Processor.Attempt | CloudRoboticsFX/CloudRoboticsFX.Worker/RoboticsEventProcessor.cs:128-203 | an attempt escapes the handler iff the message is unhandled; no marker logs one info entry and changes nothing; a header property that is not an object is a caught non-SQL failure with no event and no state change; an attempt never writes E001 itself |
| ProcessorFacts.AttemptSkippedIff | CloudRoboticsFX/CloudRoboticsFX.Worker/RoboticsEventProcessor.cs:160-251 | whether an attempt takes a warning exit depends on the message and its decoding alone, never on the state or the collaborators |
| ProcessorFacts.SkippedTouchesNothing | CloudRoboticsFX/CloudRoboticsFX.Worker/RoboticsEventProcessor.cs:160-251 | a skipped message reaches no router, cache, staging, plugin or sender |
| ProcessorFacts.LogMessageIsSilent | CloudRoboticsFX/CloudRoboticsFX.Worker/RoboticsEventProcessor.cs:170-174 | a LOG message is skipped with no log entry and no effect |
| ProcessorFacts.NullRoutingTypeWarns | CloudRoboticsFX/CloudRoboticsFX.Worker/RoboticsEventProcessor.cs:165-169 | a header without a routing type logs exactly W001 and is skipped |
| ProcessorFacts.UnknownRoutingTypeWarns | CloudRoboticsFX/CloudRoboticsFX.Worker/RoboticsEventProcessor.cs:199-203 | an unknown routing type logs exactly W002 and is skipped |
| ProcessorFacts.D2DForwardsItself | CloudRoboticsFX/CloudRoboticsFX.Worker/RoboticsEventProcessor.cs:205-273 | a D2D message with an empty processing id is sent as itself with the routed header, and nothing else happens |
| ProcessorFacts.ControlRepliesWithAppInfo | CloudRoboticsFX/CloudRoboticsFX.Worker/RoboticsEventProcessor.cs:375-388 | a ReqAppInfo request with a cached master record sends one reply to the source device carrying the parsed device info |
| ProcessorFacts.ControlSqlFailureNotRetried | CloudRoboticsFX/CloudRoboticsFX.Worker/RoboticsEventProcessor.cs:389-394 | a SQL failure while building a CONTROL reply logs E004 and becomes a non-transient failure |
| ProcessorFacts.CallSqlFailurePassesThrough | CloudRoboticsFX/CloudRoboticsFX.Worker/RoboticsEventProcessor.cs:398-401 | a SQL failure of the master lookup on the CALL path reaches the retry loop as it was |
| ProcessorFacts.StagingFailurePassesThrough | CloudRoboticsFX/CloudRoboticsFX.Worker/RoboticsEventProcessor.cs:437-443 | a download failure during staging reaches the retry loop unwrapped |
| ProcessorFacts.CallSendsPluginOutput | CloudRoboticsFX/CloudRoboticsFX.Worker/RoboticsEventProcessor.cs:481-495 | with everything cached and loaded, the plugin is called with its file name as processing stack, and exactly its output is sent |
| ProcessorFacts.NonObjectBodyFailsBeforeApps | CloudRoboticsFX/CloudRoboticsFX.Worker/RoboticsEventProcessor.cs:205-227 | a CALL, or a D2D message with a processing id, whose body is not an object fails with a non-transient error after device routing, with the state unchanged and no cache, staging or plugin call |
| ProcessorFacts.RouterCacheServesCollidingPair | CloudRoboticsFX/CloudRoboticsFX.Worker/RoboticsEventProcessor.cs:534-541 | the record fetched for ("a_b","c") is served to ("a","b_c") without a fetch while fresh |
| PartitionLoop.RunMessage | CloudRoboticsFX/CloudRoboticsFX.Worker/RoboticsEventProcessor.cs:127-336 | the message loop follows the retry controller over the attempts' outcomes, the first of which is the first attempt's; it is still running only when every attempt supplied was used; only an unhandled message escapes it |
| PartitionLoop.RunMessageFollowsAttempts | CloudRoboticsFX/CloudRoboticsFX.Worker/RoboticsEventProcessor.cs:127-336 | the loop's outcomes are, in order, those of the attempts, each on the state the attempts before it left |
| PartitionLoop.RunMessageKeepsState | CloudRoboticsFX/CloudRoboticsFX.Worker/RoboticsEventProcessor.cs:127-336 | the state the loop leaves is the one its last attempt left, so cache, router and staging updates made by a retried attempt carry over to the next attempt and the next message |
| PartitionLoop.RunMessageLogsAttempts | CloudRoboticsFX/CloudRoboticsFX.Worker/RoboticsEventProcessor.cs:127-336 | the loop's log is, attempt by attempt, that attempt's sends, calls and entries followed by the catch block's retry entry or E001, so every retry repeats its attempt's sends and entries |
| PartitionLoop.AbandonsAreTheController | CloudRoboticsFX/CloudRoboticsFX.Worker/RoboticsEventProcessor.cs:287-325 | the loop writes exactly as many E001 entries as the catch block does over the attempts' outcomes; the attempts write none themselves |
| PartitionLoop.TransientFailuresAbandonMessage | CloudRoboticsFX/CloudRoboticsFX.Worker/RoboticsEventProcessor.cs:127-336 | a message whose first 21 attempts all fail transiently, started with the flag clear and the count at zero, leaves the loop after exactly 21 attempts with the flag clear, the count at 21 and exactly one E001 |
| PartitionLoop.PartitionHandler | CloudRoboticsFX/CloudRoboticsFX.Worker/RoboticsEventProcessor.cs:118-133 | each message starts its retry loop with the count at zero and the flag as the previous message left it; only an unhandled message escapes |
| PartitionLoop.RunBatch | CloudRoboticsFX/CloudRoboticsFX.Worker/RoboticsEventProcessor.cs:102-117 | the checkpoint is advanced before each message; a failed checkpoint stops the batch before its message, with an info entry |
| PartitionLoop.CheckpointLossStops | CloudRoboticsFX/CloudRoboticsFX.Worker/RoboticsEventProcessor.cs:104-115 | a lost checkpoint stops the batch at the first message whose checkpoint fails, every earlier one having succeeded, and logs an info entry rather than E999 |
| PartitionLoop.AbortNeedsUnhandledMessage | CloudRoboticsFX/CloudRoboticsFX.Worker/RoboticsEventProcessor.cs:348-358 | with a handler that only unhandled messages escape, the batch ends with E999 only at an unhandled message |
| PartitionLoop.CheckpointedUpToStop | CloudRoboticsFX/CloudRoboticsFX.Worker/RoboticsEventProcessor.cs:102-117 | every message up to the one where the batch stops, and every message of a finished batch, was checkpointed |
| PartitionLoop.BatchSplits | CloudRoboticsFX/CloudRoboticsFX.Worker/RoboticsEventProcessor.cs:100-118 | a batch that runs to its end followed by more messages is the first batch, then the rest started from the state and flag it left |
| PartitionLoop.BatchResumes | CloudRoboticsFX/CloudRoboticsFX.Worker/RoboticsEventProcessor.cs:100-118 | once the messages before message n are handled, the rest of the batch runs as a batch of its own from the state and flag they left |
| LoopFacts.ExitClearsFlag | CloudRoboticsFX/CloudRoboticsFX.Worker/RoboticsEventProcessor.cs:289-332 | when a message's loop ends the flag is clear, unless a set flag met a skip or an unhandled message |
| LoopFacts.BatchKeepsFlagClear | CloudRoboticsFX/CloudRoboticsFX.Worker/RoboticsEventProcessor.cs:100-118 | a batch started with the flag clear ends with it clear unless a message is still looping |
| LoopFacts.EveryMessageStartsClear | CloudRoboticsFX/CloudRoboticsFX.Worker/RoboticsEventProcessor.cs:100-133 | in a batch started with the flag clear, each message reached starts its loop with the flag clear and the rest of the batch runs as a fresh batch, so no message inherits a retry from the one before |
| LoopFacts.BatchContainsFailures | CloudRoboticsFX/CloudRoboticsFX.Worker/RoboticsEventProcessor.cs:348-358 | with every checkpoint succeeding and no unhandled message, no per-message failure ends the batch early, for any handler that only unhandled messages escape (the partition handler is one) |
| LoopFacts.UnhandledMessageAbortsBatch | CloudRoboticsFX/CloudRoboticsFX.Worker/RoboticsEventProcessor.cs:131-160 | an unhandled message, a marked payload that is not JSON among them, ends the batch with E999 as soon as it is reached, with no E001 and no state change |
| LoopFacts.SkipKeepsFlagSet | CloudRoboticsFX/CloudRoboticsFX.Worker/RoboticsEventProcessor.cs:165-173 | a warning exit leaves the loop without clearing a set flag |
| LoopFacts.HeaderlessMessageLeavesAtOnce | CloudRoboticsFX/CloudRoboticsFX.Worker/RoboticsEventProcessor.cs:130-137 | a message without the marker is never parsed, routed, cached or dispatched: one attempt, one info entry |

## Left out

- The UTF-8 decoding of the event bytes is left out: the payload is the UTF-16 text it yields, and invalid byte sequences are taken as already replaced.
- JSON decoding and serialisation, header schema validation, and the parse of the device info blob are codec oracles. Their libraries (including `RbHeaderBuilder.ValidateJsonSchema`) are not part of this model.
- The codec is assumed to answer the same for the same payload and transport device id, so one `Codec` serves every attempt of a message. The source does not show it, because the validator and the JSON library are not part of this model. LoopFacts.ExitClearsFlag, LoopFacts.BatchKeepsFlagClear and LoopFacts.EveryMessageStartsClear rest on this assumption, and so does every lemma that takes one codec across attempts.
- The values of the header marker, the routing-type constants and the target type "Device" come from libraries that are not part of this model; they are modelled as named strings.
- The device router is an oracle returning only the target device and target type. Its SQL lookups are not part of this model.
- The application master and router stores are oracles returning a record with its expiry, no record, or an exception. The expiry computation from the configured TTL is left to them.
- The message senders are oracles that send a whole list or fail. A send that fails part-way is not modelled.
- Processor.Deliver: treats a failing send as delivering nothing, because the senders' code is not part of this model.
- Execution-context creation, shadow copying and instance creation are oracles. The plugin's `ProcessMessage` is an oracle too. A context is known only by its directories.
- The file system and the blob store are not modelled; staging records each call as an event. The `File.Exists` test before archiving is left out, and an archive is recorded whenever a canonical record exists and a download is due. Timestamped archive names and directory creation are also left out.
- Staging.CombineJoins: does not model `Path.Combine` when the second argument is rooted, or when the directory ends in another separator, because the names combined here are plain file names.
- Staging.DevStaged: assumes the file name contains no separator and takes only the backslash as one, because `Path.GetDirectoryName` also splits at '/', normalises the path and keeps the separator of a root directory (`C:\`); none of this is modelled.
- Messages.IndexOf: compares code units ordinally, whereas `string.IndexOf(string)` is culture-sensitive and skips ignorable code points in the searched text, so a window holding "Rb", a soft hyphen (U+00AD) and "Header" passes the source's gate and not the model's. Culture data is not part of this model.
- Locks and cross-partition races are left out. One partition is modelled sequentially, and the caches and the staging state are passed from call to call.
- `Thread.Sleep`, wall-clock reads, and the trace-level delay and duration logging are left out. Time is the `now` field of each attempt's world.
- A message loop that would run forever is given a finite supply of attempt worlds. Running out of them is reported as `Again` (for a message) or `StillRetrying` (for a batch), so whatever happens after that is not modelled.
- The transport device id property (line 123) and the enqueued-time property (line 124) are taken as present. A missing one, or an enqueued time that is not a `DateTime`, would throw outside the per-message `try` and end the batch with E999; that case is left out.
- The blob download and file copy oracles of staging may fail with a SQL error, although the source's staging (the blob download, `File.Move`, `File.Copy`, `Directory.CreateDirectory`) cannot raise `SqlException`. Retrying such a failure is therefore behaviour the source never shows. A staging failure the source can produce is non-SQL, and the model does not retry it.
- A null application id, and a null dev-mode directory, are not modelled. All strings are present.
- Processor start-up and shutdown (`OpenAsync`, `CloseAsync`), role bootstrap and settings loading (WorkerRole.cs), the table logger (RbTraceLog.cs) other than its dereference of the logged document, the device simulator UI (DeviceSimulatorForm.cs), the storage-queue script (StorageQueueApi.py) and the master record entity (AppMasterEntity.cs) are not part of this model.

=== FILE: faults.dfy ===
/** Failure values of the event processor and its collaborators.

    Every collaborator (header builder, device router, application master and
    router lookups, blob download, plugin, senders) either returns a value or
    throws. The processor only ever asks one question of a thrown exception:
    is it a `SqlException` carrying one of a fixed list of error numbers?
    So a fault is either a SQL failure with its error numbers, or anything else.
 */
module Faults {

  datatype Option<+T> = None | Some(value: T)

  /** A thrown exception, as far as the processor distinguishes exceptions. */
  datatype Fault =
    | SqlErr(numbers: seq<int>)   // a SqlException and the numbers of its SqlErrors, in order
    | OtherErr                    // any other exception, including every ApplicationException

  /** A collaborator's answer: a value, or the exception it threw. */
  datatype Result<+T> = Ok(value: T) | Err(fault: Fault)

  /** The SQL error numbers after which a message is retried (a reconfiguration
      of the database may be in progress). Order as in the source list. */
  const RetryList: seq<int> := [20, 64, 233, 10053, 10054, 10060, 40143, 40197, 40501, 40613]

  /** Reference definition: a fault is transient iff it is a SQL failure at least
      one of whose error numbers is on the retry list. */
  predicate IsTransient(f: Fault) {
    f.SqlErr? && exists i :: 0 <= i < |f.numbers| && f.numbers[i] in RetryList
  }

  /** Wrapping an exception into an `ApplicationException` (as the CONTROL
      path and the plugin-host steps do) loses its SQL identity. */
  function Wrap(f: Fault): (r: Fault)
    ensures !IsTransient(r)
  {
    OtherErr
  }

  /** The scan over a SqlException's errors: stops at the first number found
      on the retry list. */
  method ScanErrors(numbers: seq<int>) returns (found: bool)
    ensures found <==> IsTransient(SqlErr(numbers))
  {
    found := false;
    var i := 0;
    while i < |numbers|
      invariant 0 <= i <= |numbers|
      invariant !found
      invariant forall j :: 0 <= j < i ==> numbers[j] !in RetryList
    {
      if numbers[i] in RetryList {
        found := true;
        return;
      }
      i := i + 1;
    }
  }
}

=== FILE: loop_facts.dfy ===
/** Properties of the per-message and per-batch loops. */
module LoopFacts {
  import opened Messages
  import opened Trace
  import opened Retry
  import opened Processor
  import opened ProcessorFacts
  import opened PartitionLoop

  /** Whenever a message's loop ends, the flag is clear again, provided that
      a set flag never meets a skipped or an unhandled message. A skip leaves the
      loop without touching the flag, so this proviso is what keeps the
      batch-scoped flag from leaking into the next message. */
  lemma {:induction false} ExitClearsFlag(st: State, c: Ctl, m: Message, cfg: Config, codec: Codec, worlds: seq<World>)
    requires c.sqlexOn ==> !IsSkip(m, codec) && !Unhandled(m, codec)
    ensures RunMessage(st, c, m, cfg, codec, worlds).verdict != Again ==>
      !RunMessage(st, c, m, cfg, codec, worlds).ctl.sqlexOn
    decreases |worlds|
  {
    if worlds != [] {
      var a := Attempt(st, m, cfg, codec, worlds[0]);
      AttemptSkippedIff(st, m, cfg, codec, worlds[0]);
      var d := AfterAttempt(c, a.outcome);
      if d.verdict == Again {
        ExitClearsFlag(a.st, d.ctl, m, cfg, codec, worlds[1..]);
      }
    }
  }

  /** A batch started with the flag clear ends with it clear, unless a
      message is still looping. */
  lemma {:induction false} BatchKeepsFlagClear(st: State, ds: seq<Delivery>, cfg: Config, codec: Codec)
    ensures var r := RunBatch(st, false, ds, PartitionHandler(cfg, codec));
      !r.end.StillRetrying? ==> !r.sqlexOn
    decreases |ds|
  {
    if ds != [] && ds[0].checkpointOk {
      var mr := PartitionHandler(cfg, codec)(st, false, ds[0]);
      ExitClearsFlag(st, Ctl(false, 0), ds[0].msg, cfg, codec, ds[0].attempts);
      if mr.verdict == Leave {
        BatchKeepsFlagClear(mr.st, ds[1..], cfg, codec);
      }
    }
  }

  /** Each message of a batch started with the flag clear starts its own
      loop with the flag clear: once the messages before it have been handled,
      the rest of the batch runs as a batch of its own started with the flag
      clear. So no message inherits a retry from the one before. */
  lemma EveryMessageStartsClear(st: State, ds: seq<Delivery>, n: nat, cfg: Config, codec: Codec)
    requires n <= |ds|
    ensures var run := PartitionHandler(cfg, codec);
      var pre := RunBatch(st, false, ds[..n], run);
      pre.end.AllDone? ==>
        && !pre.sqlexOn
        && RunBatch(st, false, ds, run).events == pre.events + RunBatch(pre.st, false, ds[n..], run).events
  {
    var run := PartitionHandler(cfg, codec);
    if RunBatch(st, false, ds[..n], run).end.AllDone? {
      BatchKeepsFlagClear(st, ds[..n], cfg, codec);
      BatchResumes(st, false, ds, n, run);
    }
  }

  /** The per-message handler contains every failure but those of unhandled
      messages: when each checkpoint succeeds and no message is unhandled,
      the batch never ends early. */
  lemma BatchContainsFailures(st: State, sqlexOn: bool, ds: seq<Delivery>, run: Handler, codec: Codec)
    requires EscapesOnlyUnhandled(run, codec)
    requires forall j :: 0 <= j < |ds| ==> ds[j].checkpointOk && !Unhandled(ds[j].msg, codec)
    ensures var r := RunBatch(st, sqlexOn, ds, run);
      r.end.AllDone? || r.end.StillRetrying?
  {
    CheckpointLossStops(st, sqlexOn, ds, run);
    AbortNeedsUnhandledMessage(st, sqlexOn, ds, run, codec);
  }

  /** An unhandled message ends the batch with E999 as soon as it is reached,
      whatever the flag, and no E001 is written for it: a marked payload that
      is not a JSON document is one, since the error entry for its exception
      dereferences the missing document. */
  lemma UnhandledMessageAbortsBatch(st: State, sqlexOn: bool, d: Delivery, ds: seq<Delivery>, cfg: Config, codec: Codec)
    requires d.checkpointOk && d.attempts != [] && Unhandled(d.msg, codec)
    ensures RunBatch(st, sqlexOn, [d] + ds, PartitionHandler(cfg, codec)) ==
      BatchRun(st, sqlexOn, [Checkpointed, Error(E999)], Aborted(0))
  {
    var dd := [d] + ds;
    assert dd[0] == d;
    var mr := RunMessage(st, Ctl(sqlexOn, 0), d.msg, cfg, codec, d.attempts);
    assert mr == MessageRun(st, Ctl(sqlexOn, 0), [], Crash, [Crashed]);
  }

  /** With the flag set, a skipped message leaves the loop with the flag
      still set: the exit that the proviso of `ExitClearsFlag` rules out. */
  lemma SkipKeepsFlagSet(st: State, m: Message, cfg: Config, codec: Codec, w: World, n: nat, rest: seq<World>)
    requires IsSkip(m, codec)
    ensures var r := RunMessage(st, Ctl(true, n), m, cfg, codec, [w] + rest);
      r.verdict == Leave && r.ctl == Ctl(true, n) && r.outcomes == [Skipped]
  {
    AttemptSkippedIff(st, m, cfg, codec, w);
    assert ([w] + rest)[0] == w;
  }

  /** A message whose header window lacks the marker, met with the flag
      clear, is never parsed, routed, cached or dispatched: one attempt, one
      info entry, and the loop is left. */
  lemma HeaderlessMessageLeavesAtOnce(st: State, m: Message, cfg: Config, codec: Codec, n: nat, w: World, rest: seq<World>)
    requires |m.payload| >= HeaderWindow && !HasHeaderMarker(m.payload)
    ensures RunMessage(st, Ctl(false, n), m, cfg, codec, [w] + rest) ==
      MessageRun(st, Ctl(false, n), [HeaderNotFound], Leave, [NoHeader])
  {
    assert ([w] + rest)[0] == w;
  }
}

=== FILE: messages.dfy ===
/** Messages as the event processor sees them: the raw payload text, the
    loosely decoded JSON document, the validated routing header, and the
    outgoing envelopes handed to the senders.

    The payload is the .NET string that the event's UTF-8 bytes decode to, so
    it is a sequence of UTF-16 code units: its length, its 100-unit window and
    the marker search all count code units, and a character outside the Basic
    Multilingual Plane counts as two.
 */
module Messages {
  import opened Faults

  /** The routing types a header may carry. */
  const Call: string := "CALL"
  const D2D: string := "D2D"
  const Control: string := "CONTROL"
  const Log: string := "LOG"

  /** The only control operation the processor answers. */
  const ReqAppInfo: string := "ReqAppInfo"

  /** The target type given to a message that needs no device routing. */
  const TargetDevice: string := "Device"

  /** One UTF-16 code unit. */
  newtype CodeUnit = x: int | 0 <= x < 0x1_0000

  /** Text as a .NET string holds it. */
  type Text = seq<CodeUnit>

  /** The code units of a string of Basic Multilingual Plane characters: one each. */
  function Units(s: string): (t: Text)
    requires forall i :: 0 <= i < |s| ==> s[i] as int < 0x1_0000
    ensures |t| == |s| && forall i :: 0 <= i < |s| ==> t[i] as int == s[i] as int
  {
    seq(|s|, i requires 0 <= i < |s| => s[i] as int as CodeUnit)
  }

  /** The JSON property name of the header; its presence near the start of the
      payload is the processor's cheap test for a routable message. */
  const HeaderMarker: Text := Units("RbHeader")

  /** Only this many leading code units of a payload are searched for the marker. */
  const HeaderWindow: nat := 100

  /** A message as delivered by the stream: its text and the id of the device
      whose connection delivered it. */
  datatype Message = Message(payload: Text, deviceId: string)

  /** The routing header after validation by the header builder. A null
      `AppProcessingId` is kept distinct from the empty string. */
  datatype Header = Header(
    routingType: string,
    sourceDeviceId: string,
    targetDeviceId: string,
    targetType: string,
    appId: string,
    appProcessingId: Option<string>,
    messageSeqno: string,
    sendDateTime: string,
    processingStack: string)

  /** The header object as found in the raw JSON, before validation: only its
      `RoutingType` property (possibly absent) is inspected. */
  datatype RawHeader = RawHeader(routingType: Option<string>)

  /** A decoded payload: the raw header object, if the document has one; the
      document as it is forwarded when no application processes it; and the
      `RbBody` property cast to an object and serialised back to text, which
      is `None` when the property holds something other than an object (the
      cast throws) and "null" when the property is absent. */
  datatype Decoded = Decoded(rawHeader: Option<RawHeader>, body: string, bodyObject: Option<string>)

  /** What the JSON reader makes of a payload. */
  datatype Parse =
    | NoDocument          // the text is not a JSON object, or is the literal null: no document was read
    | HeaderNotObject     // a document whose header property is not an object, so the cast to one throws
    | Document(doc: Decoded)

  /** An outgoing message: a header and a serialised body. */
  datatype Envelope = Envelope(header: Header, body: string)

  /** What the device router resolves: the target device and its type. */
  datatype Target = Target(deviceId: string, targetType: string)

  predicate OccursAt<T(==)>(s: seq<T>, t: seq<T>, i: int) {
    0 <= i && i + |t| <= |s| && s[i..i + |t|] == t
  }

  /** Position of the first occurrence of `t` in `s` at or after `from`, or -1. */
  function IndexOfFrom<T(==)>(s: seq<T>, t: seq<T>, from: nat): (r: int)
    decreases |s| - from
    ensures r == -1 || (from <= r && OccursAt(s, t, r))
    ensures r == -1 <==> forall j :: from <= j ==> !OccursAt(s, t, j)
    ensures r >= 0 ==> forall j :: from <= j < r ==> !OccursAt(s, t, j)
  {
    if from + |t| > |s| then -1
    else if s[from..from + |t|] == t then from
    else IndexOfFrom(s, t, from + 1)
  }

  /** Position of the first occurrence of `t` in `s`, or -1. */
  function IndexOf<T(==)>(s: seq<T>, t: seq<T>): (r: int)
    ensures r == -1 || OccursAt(s, t, r)
    ensures r == -1 <==> forall j :: 0 <= j ==> !OccursAt(s, t, j)
    ensures r >= 0 ==> forall j :: 0 <= j < r ==> !OccursAt(s, t, j)
  {
    IndexOfFrom(s, t, 0)
  }

  /** The header gate: the marker occurs within the first `HeaderWindow`
      code units. Only defined for payloads at least that long; a shorter
      payload makes the 100-unit substring itself fail. */
  predicate HasHeaderMarker(payload: Text)
    requires |payload| >= HeaderWindow
  {
    IndexOf(payload[..HeaderWindow], HeaderMarker) >= 0
  }

  /** The gate passes exactly when the marker lies wholly inside the window. */
  lemma HeaderMarkerWithinWindow(payload: Text)
    requires |payload| >= HeaderWindow
    ensures HasHeaderMarker(payload) <==>
      exists j :: 0 <= j && j + |HeaderMarker| <= HeaderWindow && OccursAt(payload, HeaderMarker, j)
  {
    var w := payload[..HeaderWindow];
    forall j | 0 <= j && j + |HeaderMarker| <= HeaderWindow
      ensures OccursAt(w, HeaderMarker, j) <==> OccursAt(payload, HeaderMarker, j)
    {
      assert w[j..j + |HeaderMarker|] == payload[j..j + |HeaderMarker|];
    }
    if HasHeaderMarker(payload) {
      var k := IndexOf(w, HeaderMarker);
      assert OccursAt(payload, HeaderMarker, k);
    } else {
      forall j | 0 <= j && j + |HeaderMarker| <= HeaderWindow
        ensures !OccursAt(payload, HeaderMarker, j)
      {
        assert !OccursAt(w, HeaderMarker, j);
      }
    }
  }

  /** The default target when no device routing is done: back to the source
      device, as a device; every other header field is kept. */
  function DefaultTarget(h: Header): (r: Header)
    ensures r.targetDeviceId == h.sourceDeviceId && r.targetType == TargetDevice
    ensures r.(targetDeviceId := h.targetDeviceId, targetType := h.targetType) == h
  {
    h.(targetDeviceId := h.sourceDeviceId, targetType := TargetDevice)
  }

  /** The header after device routing: the resolved target, every other field kept. */
  function Retarget(h: Header, t: Target): (r: Header)
    ensures r.targetDeviceId == t.deviceId && r.targetType == t.targetType
    ensures r.(targetDeviceId := h.targetDeviceId, targetType := h.targetType) == h
  {
    h.(targetDeviceId := t.deviceId, targetType := t.targetType)
  }
}

=== FILE: partition_loop.dfy ===
/** The partition processor's loops: the retry loop around one message, and
    the loop over a batch that advances the checkpoint before each message.

    The loop flag `sqlexOn` is declared once per batch, so it is carried from
    one message to the next; the retry count starts at zero for every message.
    A message whose loop would run forever is given a finite supply of attempt
    worlds; running out of them is reported as the loop still running.
 */
module PartitionLoop {
  import opened Faults
  import opened Messages
  import opened Trace
  import opened Routing
  import opened Retry
  import opened Processor

  /** The loop over one message: state and log afterwards, the controller,
      how it ended, and the outcome of every attempt made. */
  datatype MessageRun = MessageRun(st: State, ctl: Ctl, events: seq<Event>, verdict: Verdict, outcomes: seq<Outcome>)

  /** Attempting a message once in each world in turn, each attempt on the
      state the one before it left: element k is attempt number k, whatever
      the retry controller decides. */
  function Attempts(st: State, m: Message, cfg: Config, codec: Codec, worlds: seq<World>): (atts: seq<AttemptResult>)
    decreases |worlds|
    ensures |atts| == |worlds|
  {
    if worlds == [] then []
    else
      var a := Attempt(st, m, cfg, codec, worlds[0]);
      [a] + Attempts(a.st, m, cfg, codec, worlds[1..])
  }

  /** The log of a run of attempts from controller `c`: each attempt's own
      events, then those of the controller's decision on its outcome. */
  function AttemptLog(atts: seq<AttemptResult>, c: Ctl): seq<Event>
    decreases |atts|
  {
    if atts == [] then []
    else
      var d := AfterAttempt(c, atts[0].outcome);
      atts[0].events + d.events + AttemptLog(atts[1..], d.ctl)
  }

  function RunMessage(st: State, c: Ctl, m: Message, cfg: Config, codec: Codec, worlds: seq<World>): (r: MessageRun)
    decreases |worlds|
    // the loop's control follows the retry controller over the attempts' outcomes
    ensures |r.outcomes| <= |worlds|
    ensures Drive(c, r.outcomes) == Run(|r.outcomes|, r.ctl, Drive(c, r.outcomes).events, r.verdict)
    // the loop is still running only when every world supplied was used
    ensures r.verdict == Again ==> |r.outcomes| == |worlds|
    // the first outcome is the first attempt's (RunMessageFollowsAttempts states it for every
    // attempt, RunMessageKeepsState and RunMessageLogsAttempts give the state and the log)
    ensures worlds != [] ==> r.outcomes != [] && r.outcomes[0] == Attempt(st, m, cfg, codec, worlds[0]).outcome
    // only a message the per-message handler does not contain escapes it
    ensures r.verdict == Crash ==> Unhandled(m, codec)
  {
    if worlds == [] then MessageRun(st, c, [], Again, [])
    else
      var a := Attempt(st, m, cfg, codec, worlds[0]);
      var d := AfterAttempt(c, a.outcome);
      if d.verdict == Again then
        var rest := RunMessage(a.st, d.ctl, m, cfg, codec, worlds[1..]);
        assert ([a.outcome] + rest.outcomes)[1..] == rest.outcomes;
        MessageRun(rest.st, rest.ctl, a.events + d.events + rest.events, rest.verdict, [a.outcome] + rest.outcomes)
      else MessageRun(a.st, d.ctl, a.events + d.events, d.verdict, [a.outcome])
  }

  /** Outcomes matching the attempts still match with one more attempt in front. */
  lemma OutcomesOfAttemptsCons(a: AttemptResult, tail: seq<AttemptResult>, outs: seq<Outcome>)
    requires |outs| <= |tail|
    requires forall k :: 0 <= k < |outs| ==> outs[k] == tail[k].outcome
    ensures forall k :: 0 <= k < |outs| + 1 ==> ([a.outcome] + outs)[k] == ([a] + tail)[k].outcome
  {
    forall k | 1 <= k < |outs| + 1 ensures ([a.outcome] + outs)[k] == ([a] + tail)[k].outcome {
      assert ([a.outcome] + outs)[k] == outs[k - 1] && ([a] + tail)[k] == tail[k - 1];
    }
  }

  /** The loop's outcomes are those of the attempts, in order: each attempt
      in its own world, on the state the attempts before it left. */
  lemma {:induction false} RunMessageFollowsAttempts(st: State, c: Ctl, m: Message, cfg: Config, codec: Codec,
                                                     worlds: seq<World>)
    ensures var r := RunMessage(st, c, m, cfg, codec, worlds);
      forall k :: 0 <= k < |r.outcomes| ==> r.outcomes[k] == Attempts(st, m, cfg, codec, worlds)[k].outcome
    decreases |worlds|
  {
    if worlds != [] {
      var a := Attempt(st, m, cfg, codec, worlds[0]);
      var d := AfterAttempt(c, a.outcome);
      if d.verdict == Again {
        var rest := RunMessage(a.st, d.ctl, m, cfg, codec, worlds[1..]);
        RunMessageFollowsAttempts(a.st, d.ctl, m, cfg, codec, worlds[1..]);
        OutcomesOfAttemptsCons(a, Attempts(a.st, m, cfg, codec, worlds[1..]), rest.outcomes);
      }
    }
  }

  /** The state the loop leaves is the one its last attempt left, so what an
      attempt caches or stages carries over to the next attempt and to the
      next message; with no attempt made it is the state it started from. */
  lemma {:induction false} RunMessageKeepsState(st: State, c: Ctl, m: Message, cfg: Config, codec: Codec,
                                                worlds: seq<World>)
    ensures var r := RunMessage(st, c, m, cfg, codec, worlds);
      r.st == if r.outcomes == [] then st else Attempts(st, m, cfg, codec, worlds)[|r.outcomes| - 1].st
    decreases |worlds|
  {
    if worlds != [] {
      var a := Attempt(st, m, cfg, codec, worlds[0]);
      var d := AfterAttempt(c, a.outcome);
      var atts := Attempts(st, m, cfg, codec, worlds);
      assert atts[0] == a;
      if d.verdict == Again {
        var rest := RunMessage(a.st, d.ctl, m, cfg, codec, worlds[1..]);
        RunMessageKeepsState(a.st, d.ctl, m, cfg, codec, worlds[1..]);
        if rest.outcomes != [] {
          assert atts[|rest.outcomes|] == Attempts(a.st, m, cfg, codec, worlds[1..])[|rest.outcomes| - 1];
        }
      }
    }
  }

  /** The log of the first n attempts starts with the first attempt's. */
  lemma AttemptLogPrefix(a: AttemptResult, tail: seq<AttemptResult>, n: nat, c: Ctl)
    requires 1 <= n <= |tail| + 1
    ensures var d := AfterAttempt(c, a.outcome);
      AttemptLog(([a] + tail)[..n], c) == a.events + d.events + AttemptLog(tail[..n - 1], d.ctl)
  {
    var atts := ([a] + tail)[..n];
    assert atts[0] == a && atts[1..] == tail[..n - 1];
  }

  /** The loop's log is that of every attempt it made, in order: each
      attempt's sends, calls and entries, then the controller's retry entry or
      E001, so a retried attempt's sends and entries appear once per attempt. */
  lemma {:induction false} RunMessageLogsAttempts(st: State, c: Ctl, m: Message, cfg: Config, codec: Codec,
                                                  worlds: seq<World>)
    ensures var r := RunMessage(st, c, m, cfg, codec, worlds);
      r.events == AttemptLog(Attempts(st, m, cfg, codec, worlds)[..|r.outcomes|], c)
    decreases |worlds|
  {
    if worlds != [] {
      var a := Attempt(st, m, cfg, codec, worlds[0]);
      var d := AfterAttempt(c, a.outcome);
      if d.verdict == Again {
        var rest := RunMessage(a.st, d.ctl, m, cfg, codec, worlds[1..]);
        RunMessageLogsAttempts(a.st, d.ctl, m, cfg, codec, worlds[1..]);
        AttemptLogPrefix(a, Attempts(a.st, m, cfg, codec, worlds[1..]), |rest.outcomes| + 1, c);
      } else {
        AttemptLogPrefix(a, Attempts(a.st, m, cfg, codec, worlds[1..]), 1, c);
      }
    }
  }

  /** Transient failures among the first attempts are transient failures
      among the loop's first outcomes. */
  lemma TransientAttempts(atts: seq<AttemptResult>, outs: seq<Outcome>, n: nat)
    requires n <= |outs| <= |atts|
    requires forall k :: 0 <= k < |outs| ==> outs[k] == atts[k].outcome
    requires forall k :: 0 <= k < n ==> atts[k].outcome.Failed? && IsTransient(atts[k].outcome.fault)
    ensures AllTransient(outs, n)
  {
  }

  /** The attempts write no E001 of their own: the loop's E001 entries are
      exactly those of the retry controller over the attempts' outcomes. */
  lemma {:induction false} AbandonsAreTheController(st: State, c: Ctl, m: Message, cfg: Config, codec: Codec,
                                                    worlds: seq<World>)
    ensures var r := RunMessage(st, c, m, cfg, codec, worlds);
      Count(r.events, Error(E001)) == Count(Drive(c, r.outcomes).events, Error(E001))
    decreases |worlds|
  {
    if worlds == [] {
      assert Drive(c, []).events == [];
    } else {
      var a := Attempt(st, m, cfg, codec, worlds[0]);
      var d := AfterAttempt(c, a.outcome);
      CountAppend(a.events, d.events, Error(E001));
      if d.verdict == Again {
        var rest := RunMessage(a.st, d.ctl, m, cfg, codec, worlds[1..]);
        AbandonsAreTheController(a.st, d.ctl, m, cfg, codec, worlds[1..]);
        CountAppend(a.events + d.events, rest.events, Error(E001));
        DriveStep(c, a.outcome, rest.outcomes);
        CountAppend(d.events, Drive(d.ctl, rest.outcomes).events, Error(E001));
      } else {
        DriveStep(c, a.outcome, []);
      }
    }
  }

  /** A message whose first 21 attempts all fail transiently, started with
      the flag clear and the count at zero, is abandoned after exactly those
      21 attempts: the flag ends clear and exactly one E001 is written. */
  lemma TransientFailuresAbandonMessage(st: State, m: Message, cfg: Config, codec: Codec, worlds: seq<World>)
    requires |worlds| >= MaxRetryCount + 1
    requires forall k :: 0 <= k <= MaxRetryCount ==>
      Attempts(st, m, cfg, codec, worlds)[k].outcome.Failed? &&
      IsTransient(Attempts(st, m, cfg, codec, worlds)[k].outcome.fault)
    ensures var r := RunMessage(st, Ctl(false, 0), m, cfg, codec, worlds);
      && |r.outcomes| == MaxRetryCount + 1
      && r.verdict == Leave
      && r.ctl == Ctl(false, MaxRetryCount + 1)
      && Count(r.events, Error(E001)) == 1
  {
    var c := Ctl(false, 0);
    var outs := RunMessage(st, c, m, cfg, codec, worlds).outcomes;
    RunMessageFollowsAttempts(st, c, m, cfg, codec, worlds);
    if |outs| <= MaxRetryCount {
      TransientAttempts(Attempts(st, m, cfg, codec, worlds), outs, |outs|);
      SuccessAfterTransientFailureDoesNotLeave(c, |outs|, outs);
    }
    TransientAttempts(Attempts(st, m, cfg, codec, worlds), outs, MaxRetryCount + 1);
    TransientFailuresExhaustRetries(c, outs);
    AbandonLoggedOnce(c, outs);
    AbandonsAreTheController(st, c, m, cfg, codec, worlds);
  }

  /** One message of a batch: whether its checkpoint succeeds, and the
      collaborators' behaviour on each of its attempts. */
  datatype Delivery = Delivery(msg: Message, checkpointOk: bool, attempts: seq<World>)

  /** How a batch ended, with the index of the message where it stopped. */
  datatype BatchEnd =
    | AllDone
    | CheckpointLost(at: nat)   // the checkpoint before message `at` failed
    | Aborted(at: nat)          // message `at` escaped its handler (E999)
    | StillRetrying(at: nat)    // message `at` was still looping when its attempts ran out

  function Shift(e: BatchEnd): (r: BatchEnd)
    ensures r.AllDone? == e.AllDone? && r.CheckpointLost? == e.CheckpointLost?
    ensures r.Aborted? == e.Aborted? && r.StillRetrying? == e.StillRetrying?
    ensures !e.AllDone? ==> r.at == e.at + 1
  {
    match e
    case AllDone => AllDone
    case CheckpointLost(i) => CheckpointLost(i + 1)
    case Aborted(i) => Aborted(i + 1)
    case StillRetrying(i) => StillRetrying(i + 1)
  }

  datatype BatchRun = BatchRun(st: State, sqlexOn: bool, events: seq<Event>, end: BatchEnd)

  /** How one message of a batch is handled, given the state and the batch's
      loop flag atts the message starts. */
  type Handler = (State, bool, Delivery) -> MessageRun

  /** Only a message the per-message handler does not contain escapes `run`. */
  ghost predicate EscapesOnlyUnhandled(run: Handler, codec: Codec) {
    forall s, f, d :: run(s, f, d).verdict == Crash ==> Unhandled(d.msg, codec)
  }

  /** The partition processor's handler: the retry loop, with the retry count
      starting at zero and the flag atts the batch left it. */
  function PartitionHandler(cfg: Config, codec: Codec): (run: Handler)
    ensures EscapesOnlyUnhandled(run, codec)
  {
    (s: State, f: bool, d: Delivery) => RunMessage(s, Ctl(f, 0), d.msg, cfg, codec, d.attempts)
  }

  function RunBatch(st: State, sqlexOn: bool, ds: seq<Delivery>, run: Handler): (r: BatchRun)
    decreases |ds|
    // the checkpoint precedes every message: a failed one stops the batch before the message
    ensures |ds| > 0 ==> |r.events| > 0 && (ds[0].checkpointOk <==> r.events[0] == Checkpointed)
    ensures |ds| > 0 && !ds[0].checkpointOk ==> r == BatchRun(st, sqlexOn, [CheckpointRetry], CheckpointLost(0))
    ensures !r.end.AllDone? ==> r.end.at < |ds|
  {
    if ds == [] then BatchRun(st, sqlexOn, [], AllDone)
    else if !ds[0].checkpointOk then BatchRun(st, sqlexOn, [CheckpointRetry], CheckpointLost(0))
    else
      var mr := run(st, sqlexOn, ds[0]);
      var ev := [Checkpointed] + mr.events;
      match mr.verdict
      case Crash => BatchRun(mr.st, mr.ctl.sqlexOn, ev + [Error(E999)], Aborted(0))
      case Again => BatchRun(mr.st, mr.ctl.sqlexOn, ev, StillRetrying(0))
      case Leave =>
        var rest := RunBatch(mr.st, mr.ctl.sqlexOn, ds[1..], run);
        BatchRun(rest.st, rest.sqlexOn, ev + rest.events, Shift(rest.end))
  }

  /** Where a lost checkpoint stops the batch: at the first message whose
      checkpoint fails. */
  lemma {:induction false} CheckpointLossAt(st: State, sqlexOn: bool, ds: seq<Delivery>, run: Handler)
    ensures var r := RunBatch(st, sqlexOn, ds, run);
      r.end.CheckpointLost? ==>
        !ds[r.end.at].checkpointOk && forall j :: 0 <= j < r.end.at ==> ds[j].checkpointOk
    decreases |ds|
  {
    if ds != [] && ds[0].checkpointOk {
      var mr := run(st, sqlexOn, ds[0]);
      if mr.verdict == Leave {
        RunBatchStep(st, sqlexOn, ds, run);
        var rest := RunBatch(mr.st, mr.ctl.sqlexOn, ds[1..], run);
        CheckpointLossAt(mr.st, mr.ctl.sqlexOn, ds[1..], run);
        if rest.end.CheckpointLost? {
          assert ds[rest.end.at + 1] == ds[1..][rest.end.at];
          CheckpointedPrefix(ds, rest.end.at + 1);
        }
      }
    }
  }

  /** A batch stopped by a lost checkpoint logs that atts its last entry. */
  lemma {:induction false} CheckpointLossLogged(st: State, sqlexOn: bool, ds: seq<Delivery>, run: Handler)
    ensures var r := RunBatch(st, sqlexOn, ds, run);
      r.end.CheckpointLost? ==> r.events[|r.events| - 1] == CheckpointRetry
    decreases |ds|
  {
    if ds != [] && ds[0].checkpointOk {
      var mr := run(st, sqlexOn, ds[0]);
      if mr.verdict == Leave {
        RunBatchStep(st, sqlexOn, ds, run);
        var rest := RunBatch(mr.st, mr.ctl.sqlexOn, ds[1..], run);
        CheckpointLossLogged(mr.st, mr.ctl.sqlexOn, ds[1..], run);
        if rest.end.CheckpointLost? {
          LastOfConcat([Checkpointed] + mr.events, rest.events);
        }
      }
    }
  }

  /** A lost checkpoint stops the batch at the first message whose checkpoint
      fails, and is logged atts an info entry, not atts E999. */
  lemma CheckpointLossStops(st: State, sqlexOn: bool, ds: seq<Delivery>, run: Handler)
    ensures var r := RunBatch(st, sqlexOn, ds, run);
      r.end.CheckpointLost? ==>
        && !ds[r.end.at].checkpointOk
        && (forall j :: 0 <= j < r.end.at ==> ds[j].checkpointOk)
        && r.events[|r.events| - 1] == CheckpointRetry
  {
    CheckpointLossAt(st, sqlexOn, ds, run);
    CheckpointLossLogged(st, sqlexOn, ds, run);
  }

  /** Only a message on which the handler can escape ends the batch, and it
      ends with E999. */
  lemma {:induction false} AbortNeedsEscape(st: State, sqlexOn: bool, ds: seq<Delivery>, run: Handler,
                                            bad: Message -> bool)
    requires forall s, f, d :: run(s, f, d).verdict == Crash ==> bad(d.msg)
    ensures var r := RunBatch(st, sqlexOn, ds, run);
      r.end.Aborted? ==> bad(ds[r.end.at].msg) && r.events[|r.events| - 1] == Error(E999)
    decreases |ds|
  {
    if ds != [] && ds[0].checkpointOk {
      var mr := run(st, sqlexOn, ds[0]);
      var ev := [Checkpointed] + mr.events;
      if mr.verdict == Crash {
        LastOfConcat(ev, [Error(E999)]);
      } else if mr.verdict == Leave {
        RunBatchStep(st, sqlexOn, ds, run);
        var rest := RunBatch(mr.st, mr.ctl.sqlexOn, ds[1..], run);
        AbortNeedsEscape(mr.st, mr.ctl.sqlexOn, ds[1..], run, bad);
        if rest.end.Aborted? {
          LastOfConcat(ev, rest.events);
          assert ds[rest.end.at + 1] == ds[1..][rest.end.at];
        }
      }
    }
  }

  /** Only a message the handler does not contain ends the batch with E999. */
  lemma AbortNeedsUnhandledMessage(st: State, sqlexOn: bool, ds: seq<Delivery>, run: Handler, codec: Codec)
    requires EscapesOnlyUnhandled(run, codec)
    ensures var r := RunBatch(st, sqlexOn, ds, run);
      r.end.Aborted? ==> Unhandled(ds[r.end.at].msg, codec) && r.events[|r.events| - 1] == Error(E999)
  {
    AbortNeedsEscape(st, sqlexOn, ds, run, m => Unhandled(m, codec));
  }

  /** Every message up to the stopping point, and every message of a batch
      run to its end, was checkpointed. */
  lemma {:induction false} CheckpointedUpToStop(st: State, sqlexOn: bool, ds: seq<Delivery>, run: Handler)
    ensures var r := RunBatch(st, sqlexOn, ds, run);
      r.end.Aborted? || r.end.StillRetrying? ==> forall j :: 0 <= j <= r.end.at ==> ds[j].checkpointOk
    ensures var r := RunBatch(st, sqlexOn, ds, run);
      r.end.AllDone? ==> forall j :: 0 <= j < |ds| ==> ds[j].checkpointOk
    decreases |ds|
  {
    if ds != [] && ds[0].checkpointOk {
      var mr := run(st, sqlexOn, ds[0]);
      if mr.verdict == Leave {
        var rest := RunBatch(mr.st, mr.ctl.sqlexOn, ds[1..], run);
        CheckpointedUpToStop(mr.st, mr.ctl.sqlexOn, ds[1..], run);
        if !rest.end.CheckpointLost? {
          var n := if rest.end.AllDone? then |ds| else rest.end.at + 2;
          forall j | 1 <= j < n ensures ds[j].checkpointOk {
            assert ds[j] == ds[1..][j - 1];
          }
        }
      }
    }
  }

  lemma ConcatTail<T>(a: seq<T>, b: seq<T>)
    requires a != []
    ensures (a + b)[0] == a[0] && (a + b)[1..] == a[1..] + b
  {
  }

  lemma ConcatAssoc<T>(a: seq<T>, b: seq<T>, c: seq<T>)
    ensures a + (b + c) == (a + b) + c
  {
  }

  lemma LastOfConcat<T>(a: seq<T>, b: seq<T>)
    requires b != []
    ensures (a + b)[|a + b| - 1] == b[|b| - 1]
  {
  }

  /** A prefix is checkpointed when its head and its tail's prefix are. */
  lemma CheckpointedPrefix(ds: seq<Delivery>, n: nat)
    requires 0 < n <= |ds| && ds[0].checkpointOk
    requires forall j :: 0 <= j < n - 1 ==> ds[1..][j].checkpointOk
    ensures forall j :: 0 <= j < n ==> ds[j].checkpointOk
  {
    forall j | 1 <= j < n ensures ds[j].checkpointOk {
      assert ds[j] == ds[1..][j - 1];
    }
  }

  /** Unfolds one handled message at the head of a batch. */
  lemma RunBatchStep(st: State, sqlexOn: bool, ds: seq<Delivery>, run: Handler)
    requires ds != [] && ds[0].checkpointOk && run(st, sqlexOn, ds[0]).verdict == Leave
    ensures var mr := run(st, sqlexOn, ds[0]);
      var rest := RunBatch(mr.st, mr.ctl.sqlexOn, ds[1..], run);
      RunBatch(st, sqlexOn, ds, run) == BatchRun(rest.st, rest.sqlexOn, [Checkpointed] + mr.events + rest.events, Shift(rest.end))
  {
  }

  /** The state, flag and log of a batch run to its end followed by more
      messages: the first batch's, then the rest's from where it left off. */
  lemma {:induction false} BatchSplitsLog(st: State, sqlexOn: bool, ds1: seq<Delivery>, ds2: seq<Delivery>, run: Handler)
    requires RunBatch(st, sqlexOn, ds1, run).end.AllDone?
    ensures var r1 := RunBatch(st, sqlexOn, ds1, run);
      var r2 := RunBatch(r1.st, r1.sqlexOn, ds2, run);
      var r := RunBatch(st, sqlexOn, ds1 + ds2, run);
      r.st == r2.st && r.sqlexOn == r2.sqlexOn && r.events == r1.events + r2.events
    decreases |ds1|
  {
    if ds1 == [] {
      assert ds1 + ds2 == ds2;
    } else {
      var mr := run(st, sqlexOn, ds1[0]);
      var ev := [Checkpointed] + mr.events;
      RunBatchStep(st, sqlexOn, ds1, run);
      var rest1 := RunBatch(mr.st, mr.ctl.sqlexOn, ds1[1..], run);
      BatchSplitsLog(mr.st, mr.ctl.sqlexOn, ds1[1..], ds2, run);
      ConcatTail(ds1, ds2);
      RunBatchStep(st, sqlexOn, ds1 + ds2, run);
      var r2 := RunBatch(rest1.st, rest1.sqlexOn, ds2, run);
      ConcatAssoc(ev, rest1.events, r2.events);
    }
  }

  /** Where a batch run to its end followed by more messages stops: where the
      rest stops, counted from the start of the whole. */
  lemma {:induction false} BatchSplitsEnd(st: State, sqlexOn: bool, ds1: seq<Delivery>, ds2: seq<Delivery>, run: Handler)
    requires RunBatch(st, sqlexOn, ds1, run).end.AllDone?
    ensures var r1 := RunBatch(st, sqlexOn, ds1, run);
      var r2 := RunBatch(r1.st, r1.sqlexOn, ds2, run);
      var r := RunBatch(st, sqlexOn, ds1 + ds2, run);
      && (r2.end.AllDone? ==> r.end.AllDone?)
      && (!r2.end.AllDone? ==> !r.end.AllDone? && r.end.at == |ds1| + r2.end.at)
    decreases |ds1|
  {
    if ds1 == [] {
      assert ds1 + ds2 == ds2;
    } else {
      var mr := run(st, sqlexOn, ds1[0]);
      RunBatchStep(st, sqlexOn, ds1, run);
      BatchSplitsEnd(mr.st, mr.ctl.sqlexOn, ds1[1..], ds2, run);
      ConcatTail(ds1, ds2);
      RunBatchStep(st, sqlexOn, ds1 + ds2, run);
    }
  }

  /** A batch run to its end, followed by more messages, is the first batch
      and then the rest, started from where the first left the state and the
      flag: each message is handled with the flag the messages before it left. */
  lemma BatchSplits(st: State, sqlexOn: bool, ds1: seq<Delivery>, ds2: seq<Delivery>, run: Handler)
    requires RunBatch(st, sqlexOn, ds1, run).end.AllDone?
    ensures var r1 := RunBatch(st, sqlexOn, ds1, run);
      var r2 := RunBatch(r1.st, r1.sqlexOn, ds2, run);
      var r := RunBatch(st, sqlexOn, ds1 + ds2, run);
      && r.st == r2.st && r.sqlexOn == r2.sqlexOn && r.events == r1.events + r2.events
      && (r2.end.AllDone? ==> r.end.AllDone?)
      && (!r2.end.AllDone? ==> !r.end.AllDone? && r.end.at == |ds1| + r2.end.at)
  {
    BatchSplitsLog(st, sqlexOn, ds1, ds2, run);
    BatchSplitsEnd(st, sqlexOn, ds1, ds2, run);
  }

  /** Once the messages before message `n` have been handled, the rest of
      the batch runs atts a batch of its own, from the state and flag they left. */
  lemma BatchResumes(st: State, sqlexOn: bool, ds: seq<Delivery>, n: nat, run: Handler)
    requires n <= |ds| && RunBatch(st, sqlexOn, ds[..n], run).end.AllDone?
    ensures var pre := RunBatch(st, sqlexOn, ds[..n], run);
      RunBatch(st, sqlexOn, ds, run).events == pre.events + RunBatch(pre.st, pre.sqlexOn, ds[n..], run).events
  {
    BatchSplits(st, sqlexOn, ds[..n], ds[n..], run);
    assert ds[..n] + ds[n..] == ds;
  }
}

=== FILE: processor.dfy ===
/** One attempt at one message of a partition: the header gate, the routing
    classifier, device routing, application routing (metadata caches, plugin
    staging, plugin host, plugin call), CONTROL replies, and dispatch.

    Collaborators are oracles. Those whose answer may differ from one attempt
    to the next (the clock, the stores, the router, the blob store, the plugin
    host, the senders) come in a `World`, one per attempt. The JSON decoding,
    the header validation and the device info parse come in a `Codec` that
    all attempts share: they are taken to answer the same for the same
    payload and transport device id.
 */
module Processor {
  import opened Faults
  import opened Messages
  import opened Trace
  import opened Records
  import opened TtlCache
  import opened Staging
  import opened Routing
  import opened Retry

  /** Process-wide state: the two metadata caches and the staging state. */
  datatype State = State(masters: Cache<AppMaster>, routers: Cache<AppRouter>, stager: Stager)

  /** Static configuration of the processor and the partition it serves. */
  datatype Config = Config(
    queueSendEnabled: bool,   // send through the storage queue rather than the IoT hub
    auditEnabled: bool,       // mirror every outgoing message to the audit stream
    baseDir: string,          // the worker's base directory
    partition: string)        // this processor's partition id

  /** Deterministic decoding: the JSON document, the header built and
      validated from the whole document and the transport device id, and the
      parse of a master record's device-facing info blob. */
  datatype Codec = Codec(
    decode: Text -> Parse,
    validate: (Text, string) -> Result<Header>,
    parseObject: string -> Result<string>)

  /** The collaborators as they answer during one attempt. */
  datatype World = World(
    now: int,
    routeDevice: Header -> Result<Target>,
    fetchMaster: string -> Fetched<AppMaster>,
    fetchRouter: (string, Option<string>) -> Fetched<AppRouter>,
    download: (AppMaster, AppRouter) -> Result<()>,
    copy: AppRouter -> Result<()>,
    createContext: Ctx -> Result<()>,
    instantiate: (string, string) -> Result<()>,
    invoke: (AppMaster, AppRouter, Header, string) -> Result<seq<Envelope>>,
    send: (Channel, seq<Envelope>) -> Result<()>,
    audit: (Envelope, string) -> Result<()>)

  /** A step of the pipeline: the state and log after it, and its result. */
  datatype Step<+T> = Step(st: State, events: seq<Event>, result: Result<T>)

  /** The application master record for the header's application, through its cache. */
  function MasterInfo(st: State, h: Header, w: World): (r: Step<AppMaster>)
    ensures r.st.routers == st.routers && r.st.stager == st.stager
    ensures r.events == (if Fresh(st.masters, h.appId, w.now) then [] else [MasterFetched(h.appId)])
    ensures Fresh(st.masters, h.appId, w.now) ==> r.st == st && r.result == Ok(st.masters[h.appId].value)
    ensures r.result.Ok? ==> h.appId in r.st.masters && r.st.masters[h.appId].value == r.result.value
    ensures r.result.Err? ==> r.st == st
  {
    var l := Get(st.masters, MasterKey(h), w.now, w.fetchMaster(h.appId));
    Step(st.(masters := l.cache), if l.fetched then [MasterFetched(h.appId)] else [], l.result)
  }

  /** The application router record for the header's application and
      processing id, through its cache. */
  function RouterInfo(st: State, h: Header, w: World): (r: Step<AppRouter>)
    ensures r.st.masters == st.masters && r.st.stager == st.stager
    ensures var key := RouterKey(h.appId, h.appProcessingId);
      && r.events == (if Fresh(st.routers, key, w.now) then [] else [RouterFetched(key)])
      && (Fresh(st.routers, key, w.now) ==> r.st == st && r.result == Ok(st.routers[key].value))
      && (r.result.Ok? ==> key in r.st.routers && r.st.routers[key].value == r.result.value)
    ensures r.result.Err? ==> r.st == st
  {
    var key := RouterKey(h.appId, h.appProcessingId);
    var l := Get(st.routers, key, w.now, w.fetchRouter(h.appId, h.appProcessingId));
    Step(st.(routers := l.cache), if l.fetched then [RouterFetched(key)] else [], l.result)
  }

  /** Where the plugin is loaded from: straight from the local directory in
      development mode (no staging state touched), otherwise staged. */
  function PluginLocation(s: Stager, master: AppMaster, router: AppRouter, cfg: Config, w: World): (r: StageStep)
    ensures router.devMode == "True" ==> r.s == s && r.events == []
    ensures router.devMode == "True" ==> (r.result.Err? <==> router.devLocalDir == "")
    ensures router.devMode != "True" ==>
      r == Stage(s, cfg.baseDir, router, cfg.partition, w.download(master, router), w.copy(router))
    ensures CallsOnly(r.events)
  {
    if router.devMode == "True" then StageStep(s, [], DevStaged(router.devLocalDir, router.fileName))
    else
      StagingLogsNothing(s, cfg.baseDir, router, cfg.partition, w.download(master, router), w.copy(router));
      Stage(s, cfg.baseDir, router, cfg.partition, w.download(master, router), w.copy(router))
  }

  /** The partition's execution context and the plugin instance in it: an
      existing context is reused whatever the plugin location, otherwise one is
      created over the location's directories and registered. Any failure is
      logged as E003 and wrapped. */
  function HostPlugin(s: Stager, loc: Staged, router: AppRouter, pid: string, w: World)
    : (r: (Stager, seq<Event>, Result<()>))
    ensures r.2.Err? ==> !IsTransient(r.2.fault) && |r.1| > 0 && r.1[|r.1| - 1] == Error(E003)
    ensures r.2.Ok? ==> pid in r.0.contexts && r.0.contexts[pid].Some?
    ensures pid in s.contexts && s.contexts[pid].Some? ==> r.0 == s
    // with no context to reuse: one whose creation fails is not registered;
    // one created is registered, even if the plugin then fails to instantiate in it
    ensures var ctx := Ctx(loc.baseDir, loc.privateDir);
      !(pid in s.contexts && s.contexts[pid].Some?) && w.createContext(ctx).Err? ==>
        r.0 == s && r.1 == [Error(E003)]
    ensures var ctx := Ctx(loc.baseDir, loc.privateDir);
      !(pid in s.contexts && s.contexts[pid].Some?) && w.createContext(ctx).Ok? ==>
        r.0 == s.(contexts := s.contexts[pid := Some(ctx)]) && |r.1| > 0 && r.1[0] == ContextCreated(pid)
    ensures r.0.dll == s.dll
    ensures KeepsOtherContexts(s.contexts, r.0.contexts, pid)
    ensures Error(E001) !in r.1
  {
    var existing := pid in s.contexts && s.contexts[pid].Some?;
    var ctx := Ctx(loc.baseDir, loc.privateDir);
    if !existing && w.createContext(ctx).Err? then (s, [Error(E003)], Err(Wrap(w.createContext(ctx).fault)))
    else
      var s1 := if existing then s else s.(contexts := s.contexts[pid := Some(ctx)]);
      var created := if existing then [] else [ContextCreated(pid)];
      match w.instantiate(loc.privateFile, router.className)
      case Err(f) => (s1, created + [Error(E003)], Err(Wrap(f)))
      case Ok(_) => (s1, created, Ok(()))
  }

  /** The plugin hosted in the partition's context, and the records it was found through. */
  datatype Hosted = Hosted(master: AppMaster, router: AppRouter)

  /** Application routing up to the plugin call: master and router records,
      plugin location, plugin host. Lookup and staging failures propagate
      unwrapped (so a transient SQL failure there is retried); a host failure
      is logged as E003 and wrapped. */
  function PreparePlugin(st: State, h: Header, cfg: Config, w: World): (r: Step<Hosted>)
    // a failed master lookup: nothing else is attempted, and its failure comes back as it was
    ensures MasterInfo(st, h, w).result.Err? ==>
      r.st == st && r.result == Err(MasterInfo(st, h, w).result.fault)
    // a failed router lookup: staging is not reached, and its failure comes back as it was
    ensures var m := MasterInfo(st, h, w);
      m.result.Ok? && RouterInfo(m.st, h, w).result.Err? ==>
        r.st.stager == st.stager && r.result == Err(RouterInfo(m.st, h, w).result.fault)
    // a failed staging (or an empty dev-mode directory): its failure comes back as it was
    ensures var m := MasterInfo(st, h, w);
      var ro := RouterInfo(m.st, h, w);
      m.result.Ok? && ro.result.Ok? ==>
        var loc := PluginLocation(ro.st.stager, m.result.value, ro.result.value, cfg, w);
        && (loc.result.Err? ==> r.result == Err(loc.result.fault))
        // any failure after the location is the host's: logged last as E003, never transient
        && (loc.result.Ok? && r.result.Err? ==>
              !IsTransient(r.result.fault) && |r.events| > 0 && r.events[|r.events| - 1] == Error(E003))
    // once hosted: both records are cached, the partition holds a context,
    // and outside development mode the partition's copy of the plugin is current
    ensures r.result.Ok? ==>
      var v := r.result.value;
      && RouterKey(h.appId, h.appProcessingId) in r.st.routers
      && r.st.routers[RouterKey(h.appId, h.appProcessingId)].value == v.router
      && h.appId in r.st.masters && r.st.masters[h.appId].value == v.master
      && cfg.partition in r.st.stager.contexts && r.st.stager.contexts[cfg.partition].Some?
      && (v.router.devMode != "True" ==> PartitionFresh(r.st.stager, v.router, cfg.partition))
    // only the retry loop abandons a message
    ensures Error(E001) !in r.events
  {
    var m := MasterInfo(st, h, w);
    if m.result.Err? then Step(m.st, m.events, Err(m.result.fault))
    else
      var ro := RouterInfo(m.st, h, w);
      if ro.result.Err? then Step(ro.st, m.events + ro.events, Err(ro.result.fault))
      else
        var master := m.result.value;
        var router := ro.result.value;
        var loc := PluginLocation(ro.st.stager, master, router, cfg, w);
        var st1 := ro.st.(stager := loc.s);
        var ev1 := m.events + ro.events + loc.events;
        if loc.result.Err? then Step(st1, ev1, Err(loc.result.fault))
        else
          var host := HostPlugin(loc.s, loc.result.value, router, cfg.partition, w);
          Step(st1.(stager := host.0), ev1 + host.1,
               match host.2 case Err(f) => Err(f) case Ok(_) => Ok(Hosted(master, router)))
  }

  /** The plugin call and what it worked with. */
  datatype Invocation = Invocation(master: AppMaster, router: AppRouter, out: seq<Envelope>)

  /** Application routing: the plugin, prepared, is called once with the
      message body and with its file name as the processing stack. A failure
      of the call is logged as E002 and wrapped. */
  function CallApps(st: State, h: Header, body: string, cfg: Config, w: World): (r: Step<Invocation>)
    // a failure before the call comes back as the preparation left it
    ensures var p := PreparePlugin(st, h, cfg, w);
      p.result.Err? ==> r.st == p.st && r.events == p.events && r.result == Err(p.result.fault)
    // the call is logged after the preparation; its failure is logged as E002 right after it, and never retried
    ensures var p := PreparePlugin(st, h, cfg, w);
      p.result.Ok? ==>
        var v := p.result.value;
        var out := w.invoke(v.master, v.router, h.(processingStack := v.router.fileName), body);
        && r.st == p.st
        && (out.Err? ==> r.events == p.events + [Invoked(v.router.className), Error(E002)]
                         && r.result.Err? && !IsTransient(r.result.fault))
        && (out.Ok? ==> r.events == p.events + [Invoked(v.router.className)]
                        && r.result == Ok(Invocation(v.master, v.router, out.value)))
    ensures r.result.Ok? ==>
      var v := r.result.value;
      && RouterKey(h.appId, h.appProcessingId) in r.st.routers
      && r.st.routers[RouterKey(h.appId, h.appProcessingId)].value == v.router
      && h.appId in r.st.masters && r.st.masters[h.appId].value == v.master
      && w.invoke(v.master, v.router, h.(processingStack := v.router.fileName), body) == Ok(v.out)
      && Invoked(v.router.className) in r.events
    ensures Error(E001) !in r.events
  {
    var p := PreparePlugin(st, h, cfg, w);
    match p.result
    case Err(f) => Step(p.st, p.events, Err(f))
    case Ok(v) =>
      match w.invoke(v.master, v.router, h.(processingStack := v.router.fileName), body)
      case Err(f) => Step(p.st, p.events + [Invoked(v.router.className), Error(E002)], Err(Wrap(f)))
      case Ok(out) => Step(p.st, p.events + [Invoked(v.router.className)], Ok(Invocation(v.master, v.router, out)))
  }

  /** The reply to a `ReqAppInfo` CONTROL message: one message with the given
      header and the parsed device-facing info blob of the application's master
      record. Any failure, the master lookup's included, is logged as E004 and
      wrapped. */
  function ProcessControlMessage(st: State, h: Header, codec: Codec, w: World): (r: Step<seq<Envelope>>)
    ensures r.result.Err? ==> !IsTransient(r.result.fault) && |r.events| > 0 && r.events[|r.events| - 1] == Error(E004)
    ensures r.result.Ok? ==>
      && h.appId in r.st.masters
      && codec.parseObject(r.st.masters[h.appId].value.appInfoDevice).Ok?
      && r.result.value == [Envelope(h, codec.parseObject(r.st.masters[h.appId].value.appInfoDevice).value)]
    ensures r.st.routers == st.routers && r.st.stager == st.stager
    ensures Error(E001) !in r.events
  {
    var m := MasterInfo(st, h, w);
    match m.result
    case Err(_) => Step(m.st, m.events + [Error(E004)], Err(Wrap(m.result.fault)))
    case Ok(master) =>
      match codec.parseObject(master.appInfoDevice)
      case Err(f) => Step(m.st, m.events + [Error(E004)], Err(Wrap(f)))
      case Ok(b) => Step(m.st, m.events, Ok([Envelope(h, b)]))
  }

  /** The routing result of a classified message: messages to dispatch, or a
      CONTROL message dropped with a warning. */
  datatype Outgoing = Dispatch(msgs: seq<Envelope>) | Drop

  /** The header after the device-routing step: the resolved target for a
      D2D message, the source device otherwise. */
  function RoutedHeader(h: Header, w: World): (r: Result<Header>)
    ensures h.routingType != D2D ==> r == Ok(DefaultTarget(h))
    ensures h.routingType == D2D ==> (r.Ok? <==> w.routeDevice(h).Ok?)
    ensures h.routingType == D2D && r.Ok? ==> r.value == Retarget(h, w.routeDevice(h).value)
    ensures r.Ok? ==> r.value.routingType == h.routingType && r.value.appProcessingId == h.appProcessingId
  {
    if h.routingType == D2D then
      match w.routeDevice(h) case Ok(t) => Ok(Retarget(h, t)) case Err(f) => Err(f)
    else Ok(DefaultTarget(h))
  }

  /** Device routing (or the default target), then application routing, the
      forward of a D2D message, or the CONTROL handling. Application routing
      first casts the body to an object, which throws for any other body. */
  function Route(st: State, h: Header, doc: Decoded, cfg: Config, codec: Codec, w: World)
    : (r: Step<Outgoing>)
    requires PlanFor(h).Plan?
    // a D2D message without application routing forwards exactly itself, with the routed header
    ensures h.routingType == D2D && h.appProcessingId == Some("") && w.routeDevice(h).Ok? ==>
      r == Step(st, [DeviceRouted(w.routeDevice(h).value)],
                Ok(Dispatch([Envelope(Retarget(h, w.routeDevice(h).value), doc.body)])))
    // a body that is not an object fails application routing before any lookup, unwrapped
    ensures PlanFor(h).appRouting && RoutedHeader(h, w).Ok? && doc.bodyObject.None? ==>
      r == Step(st, if h.routingType == D2D then [DeviceRouted(w.routeDevice(h).value)] else [], Err(OtherErr))
    // with application routing, the outgoing messages are what the plugin returned for the body object
    ensures PlanFor(h).appRouting && r.result.Ok? ==>
      && r.result.value.Dispatch?
      && RoutedHeader(h, w).Ok?
      && doc.bodyObject.Some?
      && CallApps(st, RoutedHeader(h, w).value, doc.bodyObject.value, cfg, w).result.Ok?
      && CallApps(st, RoutedHeader(h, w).value, doc.bodyObject.value, cfg, w).result.value.out == r.result.value.msgs
    // only a CONTROL message other than ReqAppInfo is dropped
    ensures r.result.Ok? && r.result.value.Drop? <==> h.routingType == Control && ControlActionFor(h) != Reply
    // a CONTROL reply is exactly one message, with the header retargeted to the source
    ensures h.routingType == Control && r.result.Ok? && r.result.value.Dispatch? ==>
      |r.result.value.msgs| == 1 && r.result.value.msgs[0].header == DefaultTarget(h)
    ensures Error(E001) !in r.events
  {
    match RoutedHeader(h, w)
    case Err(f) => Step(st, [], Err(f))
    case Ok(h2) =>
      var ev := if h.routingType == D2D then [DeviceRouted(w.routeDevice(h).value)] else [];
      if PlanFor(h).appRouting then
        match doc.bodyObject
        case None => Step(st, ev, Err(OtherErr))
        case Some(body) =>
          var c := CallApps(st, h2, body, cfg, w);
          Step(c.st, ev + c.events, match c.result case Ok(v) => Ok(Dispatch(v.out)) case Err(f) => Err(f))
      else if h2.routingType == Control then
        match ControlActionFor(h2)
        case MissingId => Step(st, ev + [Error(W003)], Ok(Drop))
        case BadId => Step(st, ev + [Error(W004)], Ok(Drop))
        case Reply =>
          var c := ProcessControlMessage(st, h2, codec, w);
          Step(c.st, ev + c.events, match c.result case Ok(msgs) => Ok(Dispatch(msgs)) case Err(f) => Err(f))
      else Step(st, ev, Ok(Dispatch([Envelope(h2, doc.body)])))
  }

  /** The channel every outgoing message goes through. */
  function ChannelFor(cfg: Config): Channel {
    if cfg.queueSendEnabled then StorageQueue else IotHub
  }

  /** One `Sent` entry per message, in order. */
  function SentAll(ch: Channel, msgs: seq<Envelope>): (es: seq<Event>)
    ensures |es| == |msgs| && forall i :: 0 <= i < |msgs| ==> es[i] == Sent(ch, msgs[i])
    ensures CallsOnly(es)
  {
    if msgs == [] then [] else [Sent(ch, msgs[0])] + SentAll(ch, msgs[1..])
  }

  /** Mirror each message to the audit stream, tagged with the device id the
      message arrived from, stopping at the first failure. */
  function Mirror(msgs: seq<Envelope>, deviceId: string, w: World): (r: (seq<Event>, Result<()>))
    ensures |r.0| <= |msgs| && forall i :: 0 <= i < |r.0| ==> r.0[i] == Audited(msgs[i], deviceId)
    ensures r.1.Ok? ==> |r.0| == |msgs|
    ensures r.1.Err? ==> |r.0| < |msgs| && w.audit(msgs[|r.0|], deviceId) == Err(r.1.fault)
    ensures CallsOnly(r.0)
  {
    if msgs == [] then ([], Ok(()))
    else match w.audit(msgs[0], deviceId)
      case Err(f) => ([], Err(f))
      case Ok(_) =>
        var rest := Mirror(msgs[1..], deviceId, w);
        ([Audited(msgs[0], deviceId)] + rest.0, rest.1)
  }

  /** Dispatch: all messages through the configured channel, then, when
      auditing is on, each mirrored to the audit stream. */
  function Deliver(msgs: seq<Envelope>, deviceId: string, cfg: Config, w: World): (r: (seq<Event>, Result<()>))
    ensures w.send(ChannelFor(cfg), msgs).Err? ==> r == ([], Err(w.send(ChannelFor(cfg), msgs).fault))
    ensures w.send(ChannelFor(cfg), msgs).Ok? ==>
      |r.0| >= |msgs| && r.0[..|msgs|] == SentAll(ChannelFor(cfg), msgs)
    ensures !cfg.auditEnabled && w.send(ChannelFor(cfg), msgs).Ok? ==> r == (SentAll(ChannelFor(cfg), msgs), Ok(()))
    ensures cfg.auditEnabled && r.1.Ok? ==>
      r.0 == SentAll(ChannelFor(cfg), msgs) + seq(|msgs|, i requires 0 <= i < |msgs| => Audited(msgs[i], deviceId))
    ensures CallsOnly(r.0)
  {
    var ch := ChannelFor(cfg);
    match w.send(ch, msgs)
    case Err(f) => ([], Err(f))
    case Ok(_) =>
      if cfg.auditEnabled then
        var a := Mirror(msgs, deviceId, w);
        CallsOnlyAppend(SentAll(ch, msgs), a.0);
        assert a.1.Ok? ==> a.0 == seq(|msgs|, i requires 0 <= i < |msgs| => Audited(msgs[i], deviceId));
        (SentAll(ch, msgs) + a.0, a.1)
      else (SentAll(ch, msgs), Ok(()))
  }

  /** The state, log and outcome of one attempt. */
  datatype AttemptResult = AttemptResult(st: State, events: seq<Event>, outcome: Outcome)

  /** The classified part of an attempt: routing, then dispatch. */
  function Finish(st: State, m: Message, doc: Decoded, h: Header, cfg: Config, codec: Codec, w: World)
    : (r: AttemptResult)
    requires PlanFor(h).Plan?
    ensures r.outcome.Skipped? <==> h.routingType == Control && ControlActionFor(h) != Reply
    ensures !r.outcome.Crashed? && !r.outcome.NoHeader?
    ensures Error(E001) !in r.events
  {
    var routed := Route(st, h, doc, cfg, codec, w);
    match routed.result
    case Err(f) => AttemptResult(routed.st, routed.events, Failed(f))
    case Ok(Drop) => AttemptResult(routed.st, routed.events, Skipped)
    case Ok(Dispatch(msgs)) =>
      var d := Deliver(msgs, m.deviceId, cfg, w);
      AttemptResult(routed.st, routed.events + d.0, match d.1 case Err(f) => Failed(f) case Ok(_) => Completed)
  }

  /** A message the per-message handler does not contain: its 100-unit
      window cannot be taken, or it carries the marker but no JSON document
      was read from it, so that the E001 entry written for the exception
      dereferences the missing document and throws again. */
  predicate Unhandled(m: Message, codec: Codec) {
    |m.payload| < HeaderWindow || (HasHeaderMarker(m.payload) && codec.decode(m.payload).NoDocument?)
  }

  /** One attempt at a message. */
  function Attempt(st: State, m: Message, cfg: Config, codec: Codec, w: World): (r: AttemptResult)
    // a short payload, or a marked one that is not a JSON document, escapes the per-message handler
    ensures r.outcome.Crashed? <==> Unhandled(m, codec)
    ensures r.outcome.Crashed? ==> r.st == st && r.events == []
    // no marker: one info entry, and nothing else happens
    ensures r.outcome.NoHeader? <==> |m.payload| >= HeaderWindow && !HasHeaderMarker(m.payload)
    ensures r.outcome.NoHeader? ==> r.st == st && r.events == [HeaderNotFound]
    // a document whose header is not an object: the cast throws inside the per-message handler
    ensures |m.payload| >= HeaderWindow && HasHeaderMarker(m.payload) && codec.decode(m.payload).HeaderNotObject? ==>
      r == AttemptResult(st, [], Failed(OtherErr))
    // only the retry loop abandons a message: no step of an attempt writes E001
    ensures Error(E001) !in r.events
  {
    if |m.payload| < HeaderWindow then AttemptResult(st, [], Crashed)
    else if !HasHeaderMarker(m.payload) then AttemptResult(st, [HeaderNotFound], NoHeader)
    else match codec.decode(m.payload)
      case NoDocument => AttemptResult(st, [], Crashed)
      case HeaderNotObject => AttemptResult(st, [], Failed(OtherErr))
      case Document(d) =>
        match RawGate(d)
        case SkipNullType => AttemptResult(st, [Error(W001)], Skipped)
        case SkipLog => AttemptResult(st, [], Skipped)
        case Proceed =>
          match codec.validate(m.payload, m.deviceId)
          case Err(f) => AttemptResult(st, [], Failed(f))
          case Ok(h) =>
            match PlanFor(h)
            case BadType => AttemptResult(st, [Error(W002)], Skipped)
            case Plan(_, _) => Finish(st, m, d, h, cfg, codec, w)
  }
}

=== FILE: processor_facts.dfy ===
/** Properties of one attempt at a message. */
module ProcessorFacts {
  import opened Faults
  import opened Messages
  import opened Trace
  import opened Records
  import opened TtlCache
  import opened Staging
  import opened Routing
  import opened Retry
  import opened Processor

  /** The messages that leave the retry loop directly through a warning (or
      LOG) path; which they are depends on the payload and the codec alone. */
  predicate IsSkip(m: Message, codec: Codec) {
    && |m.payload| >= HeaderWindow
    && HasHeaderMarker(m.payload)
    && codec.decode(m.payload).Document?
    && var d := codec.decode(m.payload).doc;
       || RawGate(d) != Proceed
       || (&& codec.validate(m.payload, m.deviceId).Ok?
           && var h := codec.validate(m.payload, m.deviceId).value;
              || PlanFor(h).BadType?
              || (h.routingType == Control && ControlActionFor(h) != Reply))
  }

  /** An attempt is skipped exactly for the skip messages, whatever the state
      and whatever the collaborators do on that attempt. */
  lemma AttemptSkippedIff(st: State, m: Message, cfg: Config, codec: Codec, w: World)
    ensures Attempt(st, m, cfg, codec, w).outcome.Skipped? <==> IsSkip(m, codec)
  {
  }

  /** A skipped message reaches no router, no cache, no staging, no plugin
      and no sender: the state is unchanged and only warnings are logged. */
  lemma SkippedTouchesNothing(st: State, m: Message, cfg: Config, codec: Codec, w: World)
    requires Attempt(st, m, cfg, codec, w).outcome.Skipped?
    ensures Attempt(st, m, cfg, codec, w).st == st
    ensures LogOnly(Attempt(st, m, cfg, codec, w).events)
  {
    var d := codec.decode(m.payload).doc;
    if RawGate(d) == Proceed {
      var h := codec.validate(m.payload, m.deviceId).value;
      if PlanFor(h).Plan? {
        assert h.routingType == Control && ControlActionFor(h) != Reply;
        assert RoutedHeader(h, w) == Ok(DefaultTarget(h));
      }
    }
  }

  /** LOG messages are dropped silently: no log entry, no effect. */
  lemma LogMessageIsSilent(st: State, m: Message, cfg: Config, codec: Codec, w: World)
    requires |m.payload| >= HeaderWindow && HasHeaderMarker(m.payload)
    requires codec.decode(m.payload).Document?
    requires codec.decode(m.payload).doc.rawHeader == Some(RawHeader(Some(Log)))
    ensures Attempt(st, m, cfg, codec, w) == AttemptResult(st, [], Skipped)
  {
  }

  /** A header object without a routing type: one W001 warning. */
  lemma NullRoutingTypeWarns(st: State, m: Message, cfg: Config, codec: Codec, w: World)
    requires |m.payload| >= HeaderWindow && HasHeaderMarker(m.payload)
    requires codec.decode(m.payload).Document?
    requires codec.decode(m.payload).doc.rawHeader == Some(RawHeader(None))
    ensures Attempt(st, m, cfg, codec, w) == AttemptResult(st, [Error(W001)], Skipped)
  {
  }

  /** A validated header with an unknown routing type: one W002 warning. */
  lemma UnknownRoutingTypeWarns(st: State, m: Message, cfg: Config, codec: Codec, w: World, h: Header)
    requires |m.payload| >= HeaderWindow && HasHeaderMarker(m.payload)
    requires codec.decode(m.payload).Document? && RawGate(codec.decode(m.payload).doc) == Proceed
    requires codec.validate(m.payload, m.deviceId) == Ok(h)
    requires h.routingType !in {Call, D2D, Control}
    ensures Attempt(st, m, cfg, codec, w) == AttemptResult(st, [Error(W002)], Skipped)
  {
  }

  /** A well-formed message's validated header, for the scenarios below. */
  predicate Validates(m: Message, codec: Codec, h: Header) {
    && |m.payload| >= HeaderWindow && HasHeaderMarker(m.payload)
    && codec.decode(m.payload).Document?
    && RawGate(codec.decode(m.payload).doc) == Proceed
    && codec.validate(m.payload, m.deviceId) == Ok(h)
  }

  /** D2D without application processing: the device router is consulted and
      exactly the message itself, with the routed header, goes out through the
      configured channel; no cache, staging or plugin is touched. */
  lemma D2DForwardsItself(st: State, m: Message, cfg: Config, codec: Codec, w: World, body: string, h: Header)
    requires Validates(m, codec, h) && codec.decode(m.payload).doc.body == body
    requires h.routingType == D2D && h.appProcessingId == Some("")
    requires w.routeDevice(h).Ok?
    requires !cfg.auditEnabled
    requires w.send(ChannelFor(cfg), [Envelope(Retarget(h, w.routeDevice(h).value), body)]).Ok?
    ensures var out := Envelope(Retarget(h, w.routeDevice(h).value), body);
      Attempt(st, m, cfg, codec, w) ==
        AttemptResult(st, [DeviceRouted(w.routeDevice(h).value), Sent(ChannelFor(cfg), out)], Completed)
  {
    var out := Envelope(Retarget(h, w.routeDevice(h).value), body);
    assert SentAll(ChannelFor(cfg), [out]) == [Sent(ChannelFor(cfg), out)];
  }

  /** CONTROL `ReqAppInfo` with a cached master record: exactly one reply,
      addressed back to the source device, whose body is the parsed
      device-facing info blob. */
  lemma ControlRepliesWithAppInfo(st: State, m: Message, cfg: Config, codec: Codec, w: World,
                                  h: Header, info: string)
    requires Validates(m, codec, h)
    requires h.routingType == Control && h.appProcessingId == Some(ReqAppInfo)
    requires Fresh(st.masters, h.appId, w.now)
    requires codec.parseObject(st.masters[h.appId].value.appInfoDevice) == Ok(info)
    requires !cfg.auditEnabled
    requires w.send(ChannelFor(cfg), [Envelope(DefaultTarget(h), info)]).Ok?
    ensures Attempt(st, m, cfg, codec, w) ==
      AttemptResult(st, [Sent(ChannelFor(cfg), Envelope(DefaultTarget(h), info))], Completed)
  {
    var out := Envelope(DefaultTarget(h), info);
    assert SentAll(ChannelFor(cfg), [out]) == [Sent(ChannelFor(cfg), out)];
  }

  /** Errors on the CONTROL path are wrapped, so even a transient SQL failure
      of the master lookup is not retried; it is logged as E004. */
  lemma ControlSqlFailureNotRetried(st: State, m: Message, cfg: Config, codec: Codec, w: World,
                                    h: Header, numbers: seq<int>)
    requires Validates(m, codec, h)
    requires h.routingType == Control && h.appProcessingId == Some(ReqAppInfo)
    requires !Fresh(st.masters, h.appId, w.now)
    requires w.fetchMaster(h.appId) == Err(SqlErr(numbers))
    ensures Attempt(st, m, cfg, codec, w) ==
      AttemptResult(st, [MasterFetched(h.appId), Error(E004)], Failed(OtherErr))
  {
  }

  /** On the CALL path the master lookup's SQL failure passes through
      unwrapped, so it is retried when its numbers make it transient. */
  lemma CallSqlFailurePassesThrough(st: State, m: Message, cfg: Config, codec: Codec, w: World, body: string,
                                    h: Header, numbers: seq<int>)
    requires Validates(m, codec, h) && codec.decode(m.payload).doc.bodyObject == Some(body)
    requires h.routingType == Call
    requires !Fresh(st.masters, h.appId, w.now)
    requires w.fetchMaster(h.appId) == Err(SqlErr(numbers))
    ensures Attempt(st, m, cfg, codec, w) ==
      AttemptResult(st, [MasterFetched(h.appId)], Failed(SqlErr(numbers)))
  {
    assert RoutedHeader(h, w) == Ok(DefaultTarget(h));
  }

  /** A staging failure is not wrapped either: a failed blob download reaches
      the retry loop as the exception it was. */
  lemma StagingFailurePassesThrough(st: State, m: Message, cfg: Config, codec: Codec, w: World, body: string,
                                    h: Header, master: AppMaster, router: AppRouter, f: Fault)
    requires Validates(m, codec, h) && codec.decode(m.payload).doc.bodyObject == Some(body)
    requires h.routingType == Call
    requires Fresh(st.masters, h.appId, w.now) && st.masters[h.appId].value == master
    requires Fresh(st.routers, RouterKey(h.appId, h.appProcessingId), w.now)
    requires st.routers[RouterKey(h.appId, h.appProcessingId)].value == router
    requires router.devMode != "True"
    requires router.fileName !in st.stager.dll && PartitionKey(cfg.partition, router.fileName) !in st.stager.dll
    requires w.download(master, router) == Err(f)
    ensures Attempt(st, m, cfg, codec, w).outcome == Failed(f)
  {
    var h2 := DefaultTarget(h);
    assert RoutedHeader(h, w) == Ok(h2);
    assert MasterInfo(st, h2, w) == Step(st, [], Ok(master));
    assert RouterInfo(st, h2, w) == Step(st, [], Ok(router));
    var loc := Stage(st.stager, cfg.baseDir, router, cfg.partition, Err(f), w.copy(router));
    assert loc.result == Err(f);
  }

  /** CALL with both records cached and the plugin already staged for this
      partition and loaded: the plugin is called with the processing stack set
      to the plugin's file name, and exactly the messages it returns go out. */
  lemma CallSendsPluginOutput(st: State, m: Message, cfg: Config, codec: Codec, w: World, body: string,
                              h: Header, master: AppMaster, router: AppRouter, out: seq<Envelope>)
    requires Validates(m, codec, h) && codec.decode(m.payload).doc.bodyObject == Some(body)
    requires h.routingType == Call
    requires Fresh(st.masters, h.appId, w.now) && st.masters[h.appId].value == master
    requires Fresh(st.routers, RouterKey(h.appId, h.appProcessingId), w.now)
    requires st.routers[RouterKey(h.appId, h.appProcessingId)].value == router
    requires router.devMode != "True" && PartitionFresh(st.stager, router, cfg.partition)
    requires cfg.partition in st.stager.contexts && st.stager.contexts[cfg.partition].Some?
    requires w.instantiate(Stage(st.stager, cfg.baseDir, router, cfg.partition, Ok(()), Ok(())).result.value.privateFile,
                           router.className).Ok?
    requires w.invoke(master, router, DefaultTarget(h).(processingStack := router.fileName), body) == Ok(out)
    requires !cfg.auditEnabled && w.send(ChannelFor(cfg), out).Ok?
    ensures Attempt(st, m, cfg, codec, w) ==
      AttemptResult(st, [Invoked(router.className)] + SentAll(ChannelFor(cfg), out), Completed)
  {
    var h2 := DefaultTarget(h);
    assert RoutedHeader(h, w) == Ok(h2);
    assert MasterInfo(st, h2, w) == Step(st, [], Ok(master));
    assert RouterInfo(st, h2, w) == Step(st, [], Ok(router));
    var loc := Stage(st.stager, cfg.baseDir, router, cfg.partition, w.download(master, router), w.copy(router));
    assert loc == Stage(st.stager, cfg.baseDir, router, cfg.partition, Ok(()), Ok(()));
    assert loc.s == st.stager && loc.events == [];
    var host := HostPlugin(loc.s, loc.result.value, router, cfg.partition, w);
    assert host == (st.stager, [], Ok(()));
    assert CallApps(st, h2, body, cfg, w) ==
      Step(st, [Invoked(router.className)], Ok(Invocation(master, router, out)));
  }

  /** Application routing casts the body to an object before anything else:
      a body that is not one (a string, say) fails with a non-SQL exception
      after device routing and before any store, staging or plugin is reached,
      so the message is abandoned rather than retried. */
  lemma NonObjectBodyFailsBeforeApps(st: State, m: Message, cfg: Config, codec: Codec, w: World, h: Header)
    requires Validates(m, codec, h) && codec.decode(m.payload).doc.bodyObject.None?
    requires PlanFor(h).Plan? && PlanFor(h).appRouting
    requires h.routingType == D2D ==> w.routeDevice(h).Ok?
    ensures Attempt(st, m, cfg, codec, w) ==
      AttemptResult(st, if h.routingType == D2D then [DeviceRouted(w.routeDevice(h).value)] else [], Failed(OtherErr))
    ensures !IsTransient(Attempt(st, m, cfg, codec, w).outcome.fault)
  {
  }

  /** The router cache cannot tell apart pairs whose keys collide: the record
      fetched for application "a_b" and processing id "c" is served, while it
      is fresh, to application "a" with processing id "b_c", without a fetch. */
  lemma RouterCacheServesCollidingPair(st: State, h1: Header, h2: Header, w1: World, w2: World)
    requires h1.appId == "a_b" && h1.appProcessingId == Some("c")
    requires h2.appId == "a" && h2.appProcessingId == Some("b_c")
    requires RouterInfo(st, h1, w1).result.Ok?
    requires Fresh(RouterInfo(st, h1, w1).st.routers, RouterKey(h1.appId, h1.appProcessingId), w2.now)
    ensures var s1 := RouterInfo(st, h1, w1).st;
      RouterInfo(s1, h2, w2) == Step(s1, [], RouterInfo(st, h1, w1).result)
  {
    RouterKeyCollides();
  }
}

=== FILE: records.dfy ===
/** The two metadata records the processor reads from the relational store. */
module Records {

  /** An application master record (identified by `appId`). Only the fields
      the processor reads are given meaning: the storage account for the
      plugin download and the device-facing info blob for CONTROL replies. */
  datatype AppMaster = AppMaster(
    appId: string,
    storageAccount: string,
    storageKey: string,
    appInfo: string,
    appInfoDevice: string,
    status: string,
    description: string,
    registered: int)

  /** An application router record (identified by application id and
      processing id): where the plugin lives and how to load it. */
  datatype AppRouter = AppRouter(
    appId: string,
    appProcessingId: string,
    fileName: string,
    blobContainer: string,
    className: string,
    devMode: string,
    devLocalDir: string,
    registered: int)
}

=== FILE: retry.dfy ===
/** The retry wrapper around one message: after each attempt, decide from the
    attempt's outcome whether to run the message again.

    The loop is controlled by two variables: `sqlexOn`, set when an attempt
    fails with a transient SQL error and cleared only when an attempt fails
    otherwise (or the retry bound is exceeded), and `retryCount`, the number
    of transient failures of this message so far. A completed attempt does
    not clear `sqlexOn`, so once a message has failed transiently, later
    successful attempts run it again.
 */
module Retry {
  import opened Faults
  import opened Trace

  /** The number of retries allowed; the next transient failure abandons the message. */
  const MaxRetryCount: nat := 20

  /** How one attempt at a message ended. */
  datatype Outcome =
    | Crashed          // an exception escaped the per-message handler: the batch ends
    | NoHeader         // no header marker: nothing attempted
    | Skipped          // a warning path (or LOG) left the loop directly
    | Completed        // the attempt ran to its end without an exception
    | Failed(fault: Fault)  // an exception was caught by the per-message handler

  datatype Ctl = Ctl(sqlexOn: bool, retryCount: nat)

  /** Run the message again, leave the loop, or let the exception end the batch. */
  datatype Verdict = Again | Leave | Crash

  datatype Decision = Decision(ctl: Ctl, events: seq<Event>, verdict: Verdict)

  function AfterAttempt(c: Ctl, o: Outcome): (d: Decision)
    ensures d.verdict == Crash <==> o.Crashed?
    ensures d.verdict == Again <==> !o.Crashed? && !o.Skipped? && d.ctl.sqlexOn
    // a caught exception sets the flag iff it is transient and the bound is not yet exceeded
    ensures o.Failed? ==> (d.ctl.sqlexOn <==> IsTransient(o.fault) && c.retryCount < MaxRetryCount)
    ensures o.Failed? ==> d.ctl.retryCount == c.retryCount + (if IsTransient(o.fault) then 1 else 0)
    // the message is abandoned with exactly one E001 exactly when a caught exception clears the flag
    ensures d.events == [Error(E001)] <==> o.Failed? && !d.ctl.sqlexOn
    ensures o.Failed? && d.ctl.sqlexOn ==> d.events == [RetryStarted(d.ctl.retryCount)]
    // any other outcome leaves the controller as it was
    ensures !o.Failed? ==> d.ctl == c && d.events == []
  {
    match o
    case Crashed => Decision(c, [], Crash)
    case Skipped => Decision(c, [], Leave)
    case NoHeader => Decision(c, [], if c.sqlexOn then Again else Leave)
    case Completed => Decision(c, [], if c.sqlexOn then Again else Leave)
    case Failed(f) =>
      if IsTransient(f) then
        var n := c.retryCount + 1;
        if n > MaxRetryCount then Decision(Ctl(false, n), [Error(E001)], Leave)
        else Decision(Ctl(true, n), [RetryStarted(n)], Again)
      else Decision(Ctl(false, c.retryCount), [Error(E001)], Leave)
  }

  /** The loop over a supply of attempt outcomes: how many attempts it used,
      the controller and the log afterwards, and how it ended. `Again` at the
      end means the loop was still running when the supply ran out. */
  datatype Run = Run(used: nat, ctl: Ctl, events: seq<Event>, verdict: Verdict)

  /** The controller after the first `k` outcomes, each decided in turn. */
  function CtlAfter(c: Ctl, outs: seq<Outcome>, k: nat): Ctl
    requires k <= |outs|
    decreases k
  {
    if k == 0 then c else CtlAfter(AfterAttempt(c, outs[0]).ctl, outs[1..], k - 1)
  }

  /** The decision taken after attempt number `k`. */
  function DecisionAt(c: Ctl, outs: seq<Outcome>, k: nat): Decision
    requires k < |outs|
  {
    AfterAttempt(CtlAfter(c, outs, k), outs[k])
  }

  /** Deciding the first outcome, then the rest from there, is deciding them all. */
  lemma DecisionAtShift(c: Ctl, outs: seq<Outcome>, k: nat)
    requires 1 <= k < |outs|
    ensures DecisionAt(c, outs, k) == DecisionAt(AfterAttempt(c, outs[0]).ctl, outs[1..], k - 1)
  {
  }

  function Drive(c: Ctl, outs: seq<Outcome>): (r: Run)
    decreases |outs|
    ensures r.used <= |outs|
    ensures r.verdict == Again ==> r.used == |outs|
    ensures r.verdict != Again ==> r.used >= 1
    // the loop runs again after every attempt it used but the last ...
    ensures forall k :: 0 <= k < r.used - 1 ==> DecisionAt(c, outs, k).verdict == Again
    // ... and the decision after that one is how it ended, with the controller it left
    ensures r.used >= 1 ==> DecisionAt(c, outs, r.used - 1).verdict == r.verdict
    ensures r.used >= 1 ==> DecisionAt(c, outs, r.used - 1).ctl == r.ctl
    ensures r.used == 0 ==> r.ctl == c
  {
    if outs == [] then Run(0, c, [], Again)
    else
      var d := AfterAttempt(c, outs[0]);
      if d.verdict == Again then
        var rest := Drive(d.ctl, outs[1..]);
        assert forall k :: 1 <= k < |outs| ==>
          DecisionAt(c, outs, k) == DecisionAt(d.ctl, outs[1..], k - 1) by {
          forall k | 1 <= k < |outs| { DecisionAtShift(c, outs, k); }
        }
        Run(rest.used + 1, rest.ctl, d.events + rest.events, rest.verdict)
      else Run(1, d.ctl, d.events, d.verdict)
  }

  /** The info entries of retries number `from` up to `to`. */
  function RetryLog(from: nat, to: nat): (es: seq<Event>)
    decreases to - from + 1
    ensures |es| == if from <= to then to - from + 1 else 0
    ensures Error(E001) !in es
  {
    if from > to then [] else [RetryStarted(from)] + RetryLog(from + 1, to)
  }

  /** The loop's log over one more outcome: the decision's entries, then,
      if it runs again, the log over the rest. */
  lemma DriveStep(c: Ctl, o: Outcome, outs: seq<Outcome>)
    ensures var d := AfterAttempt(c, o);
      Drive(c, [o] + outs).events == d.events + (if d.verdict == Again then Drive(d.ctl, outs).events else [])
  {
    assert ([o] + outs)[0] == o && ([o] + outs)[1..] == outs;
  }

  predicate AllTransient(outs: seq<Outcome>, n: nat)
    requires n <= |outs|
  {
    forall i :: 0 <= i < n ==> outs[i].Failed? && IsTransient(outs[i].fault)
  }

  /** Transient failures from retry count `k` on: the loop retries up to the
      bound, and the failure after that logs E001 and leaves. */
  lemma {:induction false} TransientFailuresExhaustRetries(c: Ctl, outs: seq<Outcome>)
    requires c.retryCount <= MaxRetryCount
    requires |outs| >= MaxRetryCount + 1 - c.retryCount
    requires AllTransient(outs, MaxRetryCount + 1 - c.retryCount)
    ensures Drive(c, outs) ==
      Run(MaxRetryCount + 1 - c.retryCount, Ctl(false, MaxRetryCount + 1),
          RetryLog(c.retryCount + 1, MaxRetryCount) + [Error(E001)], Leave)
    decreases MaxRetryCount - c.retryCount
  {
    var d := AfterAttempt(c, outs[0]);
    if c.retryCount == MaxRetryCount {
      assert d == Decision(Ctl(false, MaxRetryCount + 1), [Error(E001)], Leave);
      assert RetryLog(c.retryCount + 1, MaxRetryCount) == [];
    } else {
      assert d == Decision(Ctl(true, c.retryCount + 1), [RetryStarted(c.retryCount + 1)], Again);
      var rest := outs[1..];
      assert AllTransient(rest, MaxRetryCount + 1 - d.ctl.retryCount) by {
        forall i | 0 <= i < MaxRetryCount + 1 - d.ctl.retryCount
          ensures rest[i].Failed? && IsTransient(rest[i].fault)
        {
          assert rest[i] == outs[i + 1];
        }
      }
      TransientFailuresExhaustRetries(d.ctl, rest);
      assert RetryLog(c.retryCount + 1, MaxRetryCount) ==
        [RetryStarted(c.retryCount + 1)] + RetryLog(c.retryCount + 2, MaxRetryCount);
    }
  }

  /** The 21st transient failure of a message abandons it: 21 attempts, 20
      retry entries, then exactly one E001. */
  lemma TwentyFirstTransientFailureAbandons(outs: seq<Outcome>)
    requires |outs| >= 21 && AllTransient(outs, 21)
    ensures Drive(Ctl(false, 0), outs).used == 21
    ensures Drive(Ctl(false, 0), outs).verdict == Leave
    ensures Drive(Ctl(false, 0), outs).events == RetryLog(1, 20) + [Error(E001)]
    ensures !Drive(Ctl(false, 0), outs).ctl.sqlexOn
  {
    TransientFailuresExhaustRetries(Ctl(false, 0), outs);
  }

  /** Once the flag is set, completed attempts never leave the loop: every
      attempt supplied is used, nothing is logged, and the loop is still running. */
  lemma {:induction false} CompletedAttemptsKeepLooping(c: Ctl, outs: seq<Outcome>)
    requires c.sqlexOn
    requires forall i :: 0 <= i < |outs| ==> outs[i] == Completed
    ensures Drive(c, outs) == Run(|outs|, c, [], Again)
    decreases |outs|
  {
    if outs != [] {
      assert AfterAttempt(c, outs[0]) == Decision(c, [], Again);
      CompletedAttemptsKeepLooping(c, outs[1..]);
    }
  }

  /** A message that fails transiently k times (k at most 20) and then
      succeeds is never abandoned, and never leaves the loop either. */
  lemma {:induction false} SuccessAfterTransientFailureDoesNotLeave(c: Ctl, k: nat, outs: seq<Outcome>)
    requires 1 <= k <= |outs| && c.retryCount + k <= MaxRetryCount
    requires AllTransient(outs, k)
    requires forall i :: k <= i < |outs| ==> outs[i] == Completed
    ensures Drive(c, outs).verdict == Again
    ensures Drive(c, outs).used == |outs|
    ensures Error(E001) !in Drive(c, outs).events
    decreases k
  {
    var d := AfterAttempt(c, outs[0]);
    assert d == Decision(Ctl(true, c.retryCount + 1), [RetryStarted(c.retryCount + 1)], Again);
    var rest := outs[1..];
    if k == 1 {
      CompletedAttemptsKeepLooping(d.ctl, rest);
    } else {
      assert AllTransient(rest, k - 1) by {
        forall i | 0 <= i < k - 1 ensures rest[i].Failed? && IsTransient(rest[i].fault) {
          assert rest[i] == outs[i + 1];
        }
      }
      SuccessAfterTransientFailureDoesNotLeave(d.ctl, k - 1, rest);
    }
  }

  /** A SQL failure reporting the server busy (40501) at any position among
      its errors, within the retry bound, sets the flag and runs the message
      again after one retry entry. */
  lemma ServerBusyIsRetried(c: Ctl, numbers: seq<int>, k: nat)
    requires k < |numbers| && numbers[k] == 40501
    requires c.retryCount < MaxRetryCount
    ensures AfterAttempt(c, Failed(SqlErr(numbers))) ==
      Decision(Ctl(true, c.retryCount + 1), [RetryStarted(c.retryCount + 1)], Again)
  {
    assert numbers[k] in RetryList;
  }

  /** A failure that is not transient abandons the message at once, with one E001. */
  lemma NonTransientFailureAbandons(c: Ctl, outs: seq<Outcome>)
    requires |outs| >= 1 && outs[0].Failed? && !IsTransient(outs[0].fault)
    ensures Drive(c, outs) == Run(1, Ctl(false, c.retryCount), [Error(E001)], Leave)
  {
  }

  /** E001 is logged at most once per message: exactly once if the loop was
      left after a caught exception, and never otherwise. */
  lemma {:induction false} AbandonLoggedOnce(c: Ctl, outs: seq<Outcome>)
    ensures var r := Drive(c, outs);
      r.verdict == Leave && outs[r.used - 1].Failed? ==> Count(r.events, Error(E001)) == 1
    ensures var r := Drive(c, outs);
      !(r.verdict == Leave && outs[r.used - 1].Failed?) ==> Count(r.events, Error(E001)) == 0
    decreases |outs|
  {
    if outs == [] {
      assert Drive(c, outs).events == [];
    } else {
      var d := AfterAttempt(c, outs[0]);
      if d.verdict == Again {
        var rest := Drive(d.ctl, outs[1..]);
        assert Drive(c, outs) == Run(rest.used + 1, rest.ctl, d.events + rest.events, rest.verdict);
        AbandonLoggedOnce(d.ctl, outs[1..]);
        CountAppend(d.events, rest.events, Error(E001));
        assert d.events == [RetryStarted(d.ctl.retryCount)] || d.events == [];
        assert Count(d.events, Error(E001)) == 0;
        if rest.verdict == Leave {
          assert outs[rest.used] == outs[1..][rest.used - 1];
        }
      } else {
        assert Drive(c, outs) == Run(1, d.ctl, d.events, d.verdict);
        if outs[0].Failed? && d.verdict == Leave {
          assert d.events == [Error(E001)];
        } else {
          assert d.events == [];
        }
      }
    }
  }
}

=== FILE: routing.dfy ===
/** The routing classifier: which routing steps a message gets, decided from
    its header. */
module Routing {
  import opened Faults
  import opened Messages

  /** The quick check of the raw header object, before validation. */
  datatype Gate = Proceed | SkipNullType | SkipLog

  /** A header object whose `RoutingType` is absent is skipped with a warning;
      `LOG` is skipped silently (another path consumes it). A document with no
      header object at all goes on to validation. */
  function RawGate(d: Decoded): (g: Gate)
    ensures g == SkipNullType <==> d.rawHeader.Some? && d.rawHeader.value.routingType.None?
    ensures g == SkipLog <==> d.rawHeader.Some? && d.rawHeader.value.routingType == Some(Log)
  {
    match d.rawHeader
    case None => Proceed
    case Some(RawHeader(None)) => SkipNullType
    case Some(RawHeader(Some(t))) => if t == Log then SkipLog else Proceed
  }

  /** The routing plan of a validated header. */
  datatype Plan = Plan(deviceRouting: bool, appRouting: bool) | BadType

  function PlanFor(h: Header): (p: Plan)
    ensures p.BadType? <==> h.routingType != Call && h.routingType != D2D && h.routingType != Control
    ensures p.Plan? ==> (p.deviceRouting <==> h.routingType == D2D)
    ensures p.Plan? ==> (p.appRouting <==> h.routingType == Call || (h.routingType == D2D && h.appProcessingId != Some("")))
  {
    if h.routingType == Call then Plan(false, true)
    else if h.routingType == D2D then Plan(true, h.appProcessingId != Some(""))
    else if h.routingType == Control then Plan(false, false)
    else BadType
  }

  /** What a CONTROL message asks for. */
  datatype ControlAction = MissingId | Reply | BadId

  function ControlActionFor(h: Header): (a: ControlAction)
    ensures a == MissingId <==> h.appProcessingId.None?
    ensures a == Reply <==> h.appProcessingId == Some(ReqAppInfo)
  {
    match h.appProcessingId
    case None => MissingId
    case Some(p) => if p == ReqAppInfo then Reply else BadId
  }

  /** A D2D message with a null processing id is app-routed: only the empty
      string switches application routing off. */
  lemma NullProcessingIdStillAppRouted(h: Header)
    requires h.routingType == D2D && h.appProcessingId.None?
    ensures PlanFor(h) == Plan(true, true)
  {
  }

  /** A CONTROL message with an empty processing id is not a null one: it is
      rejected as a bad processing id, not as a missing one. */
  lemma EmptyControlIdIsBad(h: Header)
    requires h.appProcessingId == Some("")
    ensures ControlActionFor(h) == BadId
  {
  }
}

=== FILE: staging.dfy ===
/** Plugin staging: making sure the plugin file named by a router record is
    present and current in a partition's private directory, and keeping the
    partition's execution context consistent with it.

    One dictionary holds two kinds of freshness record: the canonical copy
    (downloaded from the blob store into the shared cache directory), keyed
    by the plugin's file name, and the per-partition copy, keyed by
    `"P" + partition + "_" + fileName`. A record is current for a router
    record when it carries the same application id, processing id and
    registration time.
 */
module Staging {
  import opened Faults
  import opened Records
  import opened Trace

  /** The freshness record of one staged copy. */
  datatype DllRecord = DllRecord(
    fileName: string,
    cacheDir: string,
    appId: string,
    appProcessingId: string,
    registered: int)

  /** An execution context (an isolation boundary hosting the loaded plugin),
      known by the directories it was created over. */
  datatype Ctx = Ctx(baseDir: string, privateDir: string)

  /** Staging state: the freshness records, and per partition its execution
      context. A partition whose context was unloaded keeps its entry, with
      no context in it. */
  datatype Stager = Stager(dll: map<string, DllRecord>, contexts: map<string, Option<Ctx>>)

  /** Where the plugin is to be loaded from: the context's base directory,
      its private directory, and the plugin file inside the latter. */
  datatype Staged = Staged(baseDir: string, privateDir: string, privateFile: string)

  datatype StageStep = StageStep(s: Stager, events: seq<Event>, result: Result<Staged>)

  /** Windows path joining: no separator is added after one already present. */
  function Combine(dir: string, name: string): string {
    if dir == "" then name
    else if dir[|dir| - 1] == '\\' then dir + name
    else dir + "\\" + name
  }

  /** A joined path ends with the name and starts with the directory, with
      one backslash between them. Kept as a lemma rather than as `Combine`'s
      own contract, so that the slices it speaks of are brought in only where
      a proof asks for them. */
  lemma CombineJoins(dir: string, name: string)
    ensures var p := Combine(dir, name);
      |p| >= |name| && p[|p| - |name|..] == name
    ensures var p := Combine(dir, name);
      dir != "" ==> |p| - |name| >= |dir| && p[..|dir|] == dir && p[|p| - |name| - 1] == '\\'
  {
  }

  function PartitionDirName(pid: string): string {
    "P" + pid
  }

  /** The key of a partition's freshness record. */
  function PartitionKey(pid: string, fileName: string): (k: string)
    ensures |k| > |fileName|
  {
    "P" + pid + "_" + fileName
  }

  predicate Matches(rec: DllRecord, r: AppRouter) {
    rec.appId == r.appId && rec.appProcessingId == r.appProcessingId && rec.registered == r.registered
  }

  /** The canonical copy is current: the blob download is skipped. */
  predicate CanonicalFresh(s: Stager, r: AppRouter) {
    r.fileName in s.dll && Matches(s.dll[r.fileName], r)
  }

  /** The partition copy is current: the whole load step is skipped. */
  predicate PartitionFresh(s: Stager, r: AppRouter, pid: string) {
    PartitionKey(pid, r.fileName) in s.dll && Matches(s.dll[PartitionKey(pid, r.fileName)], r)
  }

  function RecordFor(r: AppRouter, dir: string): (rec: DllRecord)
    ensures Matches(rec, r) && rec.fileName == r.fileName && rec.cacheDir == dir
  {
    DllRecord(r.fileName, dir, r.appId, r.appProcessingId, r.registered)
  }

  /** Unloading the partition's context before the load step: only when a
      canonical record exists and the partition has an entry; an entry whose
      context was already unloaded makes the unload call itself fail. */
  function UnloadBeforeLoad(contexts: map<string, Option<Ctx>>, pid: string, canonicalExists: bool)
    : (r: Result<map<string, Option<Ctx>>>)
    ensures r.Err? <==> canonicalExists && pid in contexts && contexts[pid].None?
    ensures r.Ok? && canonicalExists && pid in contexts ==> r.value == contexts[pid := None]
    ensures r.Ok? && !(canonicalExists && pid in contexts) ==> r.value == contexts
  {
    if canonicalExists && pid in contexts then
      if contexts[pid].None? then Err(OtherErr) else Ok(contexts[pid := None])
    else Ok(contexts)
  }

  /** Nothing changes for any partition other than `pid`. */
  ghost predicate KeepsOtherContexts(a: map<string, Option<Ctx>>, b: map<string, Option<Ctx>>, pid: string) {
    && (forall q :: q != pid ==> (q in b <==> q in a))
    && (forall q :: q != pid && q in a ==> b[q] == a[q])
  }

  /** No freshness record other than the plugin's two is touched. */
  ghost predicate KeepsOtherRecords(a: map<string, DllRecord>, b: map<string, DllRecord>, r: AppRouter, pid: string) {
    && (forall k :: k != r.fileName && k != PartitionKey(pid, r.fileName) ==> (k in b <==> k in a))
    && (forall k :: k != r.fileName && k != PartitionKey(pid, r.fileName) && k in a ==> b[k] == a[k])
  }

  /** The part of the load step after the unload: archive and download when
      the canonical copy is stale, then copy into the partition directory.
      `s` already holds the contexts as left by the unload. */
  function Refresh(s: Stager, baseDir: string, r: AppRouter, pid: string,
                   download: Result<()>, copy: Result<()>): (st: StageStep)
    ensures st.s.contexts == s.contexts
    ensures KeepsOtherRecords(s.dll, st.s.dll, r, pid)
    ensures st.result.Ok? ==> CanonicalFresh(st.s, r) && PartitionFresh(st.s, r, pid)
    ensures st.result.Ok? ==> st.result.value.privateDir == Combine(baseDir, PartitionDirName(pid))
    ensures ContextUnloaded(pid) !in st.events
    ensures Downloaded(r.fileName) in st.events <==> !CanonicalFresh(s, r) && download.Ok?
    ensures st.result.Err? ==> (!CanonicalFresh(s, r) && download.Err?) || copy.Err?
  {
    var canonKey := r.fileName;
    var privateDir := Combine(baseDir, PartitionDirName(pid));
    var blobCopy := !CanonicalFresh(s, r);
    var archived := if canonKey in s.dll && blobCopy then [Archived(r.fileName)] else [];
    if blobCopy && download.Err? then
      StageStep(s, archived, Err(download.fault))
    else
      var dll1 := if blobCopy then s.dll[canonKey := RecordFor(r, Combine(baseDir, "cache"))] else s.dll;
      var fetched := archived + (if blobCopy then [Downloaded(r.fileName)] else []);
      if copy.Err? then
        StageStep(s.(dll := dll1), fetched, Err(copy.fault))
      else
        StageStep(s.(dll := dll1[PartitionKey(pid, r.fileName) := RecordFor(r, privateDir)]),
                  fetched + [CopiedToPartition(r.fileName, pid)],
                  Ok(Staged(baseDir, privateDir, Combine(privateDir, r.fileName))))
  }

  /** The load step: unload the partition's context if a canonical record
      exists, then refresh the copies. */
  function Load(s: Stager, baseDir: string, r: AppRouter, pid: string,
                download: Result<()>, copy: Result<()>): (st: StageStep)
    ensures KeepsOtherContexts(s.contexts, st.s.contexts, pid)
    ensures KeepsOtherRecords(s.dll, st.s.dll, r, pid)
    ensures st.result.Ok? ==> CanonicalFresh(st.s, r) && PartitionFresh(st.s, r, pid)
    ensures st.result.Ok? ==> st.result.value.privateDir == Combine(baseDir, PartitionDirName(pid))
    ensures ContextUnloaded(pid) in st.events <==> r.fileName in s.dll && pid in s.contexts && s.contexts[pid].Some?
    ensures st.result.Ok? ==>
      st.s.contexts == (if r.fileName in s.dll && pid in s.contexts then s.contexts[pid := None] else s.contexts)
    ensures st.result.Ok? ==> (Downloaded(r.fileName) in st.events <==> !CanonicalFresh(s, r))
    ensures Downloaded(r.fileName) in st.events ==> !CanonicalFresh(s, r)
  {
    var canonExists := r.fileName in s.dll;
    match UnloadBeforeLoad(s.contexts, pid, canonExists)
    case Err(f) => StageStep(s, [], Err(f))
    case Ok(contexts) =>
      var unloaded := if canonExists && pid in s.contexts then [ContextUnloaded(pid)] else [];
      var rest := Refresh(s.(contexts := contexts), baseDir, r, pid, download, copy);
      StageStep(rest.s, unloaded + rest.events, rest.result)
  }

  /** The staging sequence for one plugin file and partition. `download` and
      `copy` are what the blob download and the file copy would do if called. */
  function Stage(s: Stager, baseDir: string, r: AppRouter, pid: string,
                 download: Result<()>, copy: Result<()>): (st: StageStep)
    // a current partition copy: nothing happens at all
    ensures PartitionFresh(s, r, pid) ==> st.s == s && st.events == [] && st.result.Ok?
    // otherwise, on success both records are current for this router record
    ensures !PartitionFresh(s, r, pid) && st.result.Ok? ==>
      CanonicalFresh(st.s, r) && PartitionFresh(st.s, r, pid)
    // the download happens only for a stale canonical copy, and always for one once the load step succeeds
    ensures Downloaded(r.fileName) in st.events ==> !CanonicalFresh(s, r)
    ensures !PartitionFresh(s, r, pid) && st.result.Ok? ==> (Downloaded(r.fileName) in st.events <==> !CanonicalFresh(s, r))
    // the context is unloaded iff the load step runs, a canonical record exists and the partition has a context
    ensures ContextUnloaded(pid) in st.events <==>
      !PartitionFresh(s, r, pid) && r.fileName in s.dll && pid in s.contexts && s.contexts[pid].Some?
    ensures st.result.Ok? && !PartitionFresh(s, r, pid) ==>
      st.s.contexts == (if r.fileName in s.dll && pid in s.contexts then s.contexts[pid := None] else s.contexts)
    // no other partition's context and no other freshness record is touched
    ensures KeepsOtherContexts(s.contexts, st.s.contexts, pid)
    ensures KeepsOtherRecords(s.dll, st.s.dll, r, pid)
    ensures st.result.Ok? ==> st.result.value.privateDir == Combine(baseDir, PartitionDirName(pid))
  {
    if PartitionFresh(s, r, pid) then
      var rec := s.dll[PartitionKey(pid, r.fileName)];
      StageStep(s, [], Ok(Staged(baseDir, Combine(baseDir, PartitionDirName(pid)), Combine(rec.cacheDir, rec.fileName))))
    else
      Load(s, baseDir, r, pid, download, copy)
  }

  /** The refresh writes no trace entry: it archives, downloads and copies. */
  lemma RefreshLogsNothing(s: Stager, baseDir: string, r: AppRouter, pid: string,
                           download: Result<()>, copy: Result<()>)
    ensures CallsOnly(Refresh(s, baseDir, r, pid, download, copy).events)
  {
    var blobCopy := !CanonicalFresh(s, r);
    var archived := if r.fileName in s.dll && blobCopy then [Archived(r.fileName)] else [];
    var fetched := archived + (if blobCopy then [Downloaded(r.fileName)] else []);
    CallsOnlyAppend(archived, if blobCopy then [Downloaded(r.fileName)] else []);
    CallsOnlyAppend(fetched, [CopiedToPartition(r.fileName, pid)]);
  }

  /** Staging writes no trace entry: it only records calls on the file
      system, the blob store and the plugin host. */
  lemma StagingLogsNothing(s: Stager, baseDir: string, r: AppRouter, pid: string,
                           download: Result<()>, copy: Result<()>)
    ensures CallsOnly(Stage(s, baseDir, r, pid, download, copy).events)
  {
    if !PartitionFresh(s, r, pid) {
      var canonExists := r.fileName in s.dll;
      var u := UnloadBeforeLoad(s.contexts, pid, canonExists);
      if u.Ok? {
        var unloaded := if canonExists && pid in s.contexts then [ContextUnloaded(pid)] else [];
        var s1 := s.(contexts := u.value);
        RefreshLogsNothing(s1, baseDir, r, pid, download, copy);
        CallsOnlyAppend(unloaded, Refresh(s1, baseDir, r, pid, download, copy).events);
      }
    }
  }

  /** Staging again with an unchanged router record, after a successful
      staging, does nothing, whatever the blob store and file system would do. */
  lemma StageTwiceIsNoOp(s: Stager, baseDir: string, r: AppRouter, pid: string,
                         d1: Result<()>, c1: Result<()>, d2: Result<()>, c2: Result<()>)
    requires Stage(s, baseDir, r, pid, d1, c1).result.Ok?
    ensures var s1 := Stage(s, baseDir, r, pid, d1, c1).s;
      Stage(s1, baseDir, r, pid, d2, c2).s == s1 && Stage(s1, baseDir, r, pid, d2, c2).events == []
  {
  }

  /** A refresh of a stale canonical copy whose download and copy succeed:
      archive (when a canonical record exists), download, copy, in that order. */
  lemma RefreshStaleCanonical(s: Stager, baseDir: string, r: AppRouter, pid: string)
    requires !CanonicalFresh(s, r)
    ensures var st := Refresh(s, baseDir, r, pid, Ok(()), Ok(()));
      && st.result.Ok?
      && st.s.contexts == s.contexts
      && st.events == (if r.fileName in s.dll then [Archived(r.fileName)] else [])
                      + [Downloaded(r.fileName), CopiedToPartition(r.fileName, pid)]
  {
    var archived := if r.fileName in s.dll then [Archived(r.fileName)] else [];
    assert archived + [Downloaded(r.fileName)] + [CopiedToPartition(r.fileName, pid)] ==
      archived + [Downloaded(r.fileName), CopiedToPartition(r.fileName, pid)];
  }

  /** Staging with a stale partition copy, a canonical record present and
      a partition entry holding a context: the unload, then the refresh. */
  lemma StageUnloadsThenRefreshes(s: Stager, baseDir: string, r: AppRouter, pid: string, c: Ctx,
                                  d: Result<()>, cp: Result<()>)
    requires !PartitionFresh(s, r, pid)
    requires r.fileName in s.dll && pid in s.contexts && s.contexts[pid] == Some(c)
    ensures var rest := Refresh(s.(contexts := s.contexts[pid := None]), baseDir, r, pid, d, cp);
      Stage(s, baseDir, r, pid, d, cp) == StageStep(rest.s, [ContextUnloaded(pid)] + rest.events, rest.result)
  {
  }

  /** A new registration time makes both copies stale: the next staging
      unloads the partition's context (given an entry holding one), archives,
      downloads and copies. */
  lemma NewRegistrationRestages(s: Stager, baseDir: string, r: AppRouter, pid: string, c: Ctx)
    requires r.fileName in s.dll && PartitionKey(pid, r.fileName) in s.dll
    requires s.dll[r.fileName].registered != r.registered
    requires s.dll[PartitionKey(pid, r.fileName)].registered != r.registered
    requires pid in s.contexts && s.contexts[pid] == Some(c)
    ensures var st := Stage(s, baseDir, r, pid, Ok(()), Ok(()));
      && st.result.Ok?
      && st.events == [ContextUnloaded(pid), Archived(r.fileName), Downloaded(r.fileName), CopiedToPartition(r.fileName, pid)]
      && st.s.contexts[pid] == None
  {
    var s1 := s.(contexts := s.contexts[pid := None]);
    StageUnloadsThenRefreshes(s, baseDir, r, pid, c, Ok(()), Ok(()));
    RefreshStaleCanonical(s1, baseDir, r, pid);
    var tail := [Archived(r.fileName), Downloaded(r.fileName), CopiedToPartition(r.fileName, pid)];
    var st := Stage(s, baseDir, r, pid, Ok(()), Ok(()));
    assert st.events == [ContextUnloaded(pid)] + tail;
    assert [ContextUnloaded(pid)] + tail ==
      [ContextUnloaded(pid), Archived(r.fileName), Downloaded(r.fileName), CopiedToPartition(r.fileName, pid)];
    assert st.s.contexts == s1.contexts;
  }

  /** The unload depends on the partition copy being stale and a canonical
      record existing, not on the canonical copy itself being stale: a current
      canonical copy with a stale partition copy still unloads, without any download. */
  lemma UnloadWithoutDownload(s: Stager, baseDir: string, r: AppRouter, pid: string, c: Ctx,
                              d: Result<()>)
    requires CanonicalFresh(s, r) && !PartitionFresh(s, r, pid)
    requires pid in s.contexts && s.contexts[pid] == Some(c)
    ensures var st := Stage(s, baseDir, r, pid, d, Ok(()));
      && st.result.Ok?
      && st.events == [ContextUnloaded(pid), CopiedToPartition(r.fileName, pid)]
      && st.s.contexts[pid] == None
  {
  }

  /** A download failure after the unload leaves the partition's entry
      without a context and its copy stale; the next staging of the same
      plugin then fails in the unload call, before reaching the download,
      whatever the blob store would now do. */
  lemma FailedDownloadBlocksNextStaging(s: Stager, baseDir: string, r: AppRouter, pid: string, c: Ctx,
                                        f: Fault, d2: Result<()>, c1: Result<()>, c2: Result<()>)
    requires !CanonicalFresh(s, r) && !PartitionFresh(s, r, pid) && r.fileName in s.dll
    requires pid in s.contexts && s.contexts[pid] == Some(c)
    ensures var s1 := Stage(s, baseDir, r, pid, Err(f), c1).s;
      && Stage(s, baseDir, r, pid, Err(f), c1).result == Err(f)
      && Stage(s1, baseDir, r, pid, d2, c2) == StageStep(s1, [], Err(OtherErr))
  {
  }

  /** The two kinds of freshness record share one dictionary and their keys
      can meet: the canonical record of a plugin whose file name is some
      partition's key for another plugin (the plugin "P1_x.dll", against
      "x.dll" in partition "1") is that partition's record of the other
      plugin. Staging the first with a stale canonical copy overwrites that
      record with its own, whichever partition it is staged for. */
  lemma CanonicalRecordOverwritesPartitionRecord(s: Stager, baseDir: string, r: AppRouter, pid: string,
                                                 q: string, other: string)
    requires r.fileName == PartitionKey(q, other)
    requires !PartitionFresh(s, r, pid) && !CanonicalFresh(s, r)
    ensures var st := Stage(s, baseDir, r, pid, Ok(()), Ok(()));
      st.result.Ok? ==> st.s.dll[PartitionKey(q, other)] == RecordFor(r, Combine(baseDir, "cache"))
  {
    var canonExists := r.fileName in s.dll;
    var u := UnloadBeforeLoad(s.contexts, pid, canonExists);
    if u.Ok? {
      var s1 := s.(contexts := u.value);
      var rest := Refresh(s1, baseDir, r, pid, Ok(()), Ok(()));
      assert PartitionKey(pid, r.fileName) != r.fileName;
      assert rest.s.dll == s.dll[r.fileName := RecordFor(r, Combine(baseDir, "cache"))]
                                [PartitionKey(pid, r.fileName) := RecordFor(r, Combine(baseDir, PartitionDirName(pid)))];
      assert Stage(s, baseDir, r, pid, Ok(()), Ok(())).s == rest.s;
    }
  }

  /** The development-mode plugin path: the local directory, a backslash only
      if the directory does not already end in one, then the file name. An
      empty directory makes the last-character test fail. */
  function DevPluginPath(dir: string, fileName: string): (p: Result<string>)
    ensures p.Err? <==> dir == ""
    ensures p.Ok? ==> |p.value| == |dir| + |fileName| + (if dir[|dir| - 1] == '\\' then 0 else 1)
    ensures p.Ok? ==> p.value[..|dir|] == dir && p.value[|p.value| - |fileName|..] == fileName
    ensures p.Ok? ==> p.value[|p.value| - |fileName| - 1] == '\\'
  {
    if dir == "" then Err(OtherErr)
    else
      CombineJoins(dir, fileName);
      Ok(Combine(dir, fileName))
  }

  /** Development mode loads straight from the local path: the context's base
      and private directory are both the directory holding the file. */
  function DevStaged(dir: string, fileName: string): (r: Result<Staged>)
    ensures r.Err? <==> dir == ""
    ensures r.Ok? ==> r.value.baseDir == r.value.privateDir
    ensures r.Ok? ==> r.value.privateFile == r.value.baseDir + "\\" + fileName
    // the plugin file is the dev path, in the dev directory less any trailing backslash
    ensures r.Ok? ==> r.value.privateFile == DevPluginPath(dir, fileName).value
    ensures r.Ok? ==> r.value.baseDir == if dir[|dir| - 1] == '\\' then dir[..|dir| - 1] else dir
  {
    match DevPluginPath(dir, fileName)
    case Err(f) => Err(f)
    case Ok(path) =>
      var base := path[..|path| - |fileName| - 1];
      assert path == base + "\\" + fileName;
      Ok(Staged(base, base, path))
  }
}

=== FILE: trace.dfy ===
/** The observable effects of processing: trace-log entries and the calls the
    processor makes on its collaborators, in the order they happen. */
module Trace {
  import opened Messages

  /** Codes written with an error/warning entry to the trace log. */
  datatype Code =
    | W001   // RoutingType is null
    | W002   // bad RoutingType
    | W003   // CONTROL message with a null AppProcessingId
    | W004   // CONTROL message with an AppProcessingId other than ReqAppInfo
    | E001   // a message abandoned after an exception
    | E002   // the plugin's ProcessMessage threw
    | E003   // creating the execution context or the plugin instance threw
    | E004   // building a CONTROL reply threw
    | E999   // an exception escaped the whole batch

  /** The two device-bound delivery channels. */
  datatype Channel = StorageQueue | IotHub

  datatype Event =
    | Error(code: Code)                          // an error/warning entry
    | HeaderNotFound                             // info entry: no header marker
    | RetryStarted(count: nat)                   // info entry: a transient failure will be retried
    | CheckpointRetry                            // info entry: the checkpoint failed, batch left for redelivery
    | Checkpointed                               // the read checkpoint was advanced
    | DeviceRouted(target: Target)               // the device router resolved a target
    | MasterFetched(appId: string)               // application master record read from the store
    | RouterFetched(key: string)                 // application router record read from the store
    | ContextUnloaded(partition: string)         // a partition's execution context was unloaded
    | Archived(fileName: string)                 // the canonical plugin copy was moved aside
    | Downloaded(fileName: string)               // the plugin was downloaded to the canonical copy
    | CopiedToPartition(fileName: string, partition: string)
    | ContextCreated(partition: string)
    | Invoked(className: string)                 // the plugin's ProcessMessage was called
    | Sent(channel: Channel, msg: Envelope)      // a message handed to a device channel
    | Audited(msg: Envelope, deviceId: string)   // a message mirrored to the audit stream

  /** Effects that touch a collaborator (a store, a router, a channel, the
      staging area or the plugin host), as opposed to trace-log entries. */
  predicate Touches(e: Event) {
    !(e.Error? || e.HeaderNotFound? || e.RetryStarted? || e.CheckpointRetry?)
  }

  /** True iff no event of `es` touches a collaborator. */
  predicate LogOnly(es: seq<Event>) {
    forall i :: 0 <= i < |es| ==> !Touches(es[i])
  }

  /** True iff every event of `es` touches a collaborator: no trace entry is written. */
  predicate CallsOnly(es: seq<Event>) {
    forall i :: 0 <= i < |es| ==> Touches(es[i])
  }

  lemma CallsOnlyAppend(a: seq<Event>, b: seq<Event>)
    requires CallsOnly(a) && CallsOnly(b)
    ensures CallsOnly(a + b)
  {
    forall i | 0 <= i < |a + b| ensures Touches((a + b)[i]) {
      if i >= |a| {
        assert (a + b)[i] == b[i - |a|];
      }
    }
  }

  /** The number of times `e` occurs in `es`. */
  function Count(es: seq<Event>, e: Event): (n: nat)
    ensures n <= |es|
    ensures n == 0 <==> e !in es
  {
    if es == [] then 0 else (if es[0] == e then 1 else 0) + Count(es[1..], e)
  }

  lemma {:induction false} CountAppend(a: seq<Event>, b: seq<Event>, e: Event)
    ensures Count(a + b, e) == Count(a, e) + Count(b, e)
    decreases |a|
  {
    if a == [] {
      assert a + b == b;
    } else {
      assert (a + b)[1..] == a[1..] + b;
      CountAppend(a[1..], b, e);
    }
  }
}

=== FILE: ttl_cache.dfy ===
/** The two metadata caches: application master records keyed by `AppId`, and
    application router records keyed by `AppId + "_" + AppProcessingId`.

    A cached record carries its own expiry time (set by the store lookup that
    produced it). A lookup serves the cached record while its expiry is not
    before the clock, and otherwise fetches from the store and overwrites the
    entry wholesale. A fetch that finds nothing fails and leaves the cache as
    it was.
 */
module TtlCache {
  import opened Faults
  import opened Messages

  /** A cached record and the instant after which it must be refetched. */
  datatype Entry<+V> = Entry(value: V, expires: int)

  type Cache<V> = map<string, Entry<V>>

  /** What the store lookup returns when it is made: a record (with its
      expiry), no record (null), or a thrown exception. */
  type Fetched<V> = Result<Option<Entry<V>>>

  /** The outcome of a lookup: the cache afterwards, whether the store was
      consulted, and the record returned or the failure raised. */
  datatype Lookup<V> = Lookup(cache: Cache<V>, fetched: bool, result: Result<V>)

  /** An entry is served from the cache iff its expiry is at or after `now`. */
  predicate Fresh<V>(c: Cache<V>, key: string, now: int) {
    key in c && c[key].expires >= now
  }

  function Get<V>(c: Cache<V>, key: string, now: int, store: Fetched<V>): (r: Lookup<V>)
    // the store is consulted exactly when the entry is missing or expired
    ensures r.fetched <==> !Fresh(c, key, now)
    ensures !r.fetched ==> r.cache == c && r.result == Ok(c[key].value)
    // a fetched record replaces the entry wholesale and is what is returned
    ensures r.fetched && store.Ok? && store.value.Some? ==>
      r.cache == c[key := store.value.value] && r.result == Ok(store.value.value.value)
    // a null record is a failure of its own; a thrown exception passes through
    ensures r.fetched && store.Ok? && store.value.None? ==> r.result == Err(OtherErr)
    ensures r.fetched && store.Err? ==> r.result == Err(store.fault)
    // a failed lookup leaves the cache unchanged; a successful one caches what it returns
    ensures r.result.Err? ==> r.cache == c
    ensures r.result.Ok? ==> key in r.cache && r.cache[key].value == r.result.value
  {
    if Fresh(c, key, now) then Lookup(c, false, Ok(c[key].value))
    else match store
      case Err(f) => Lookup(c, true, Err(f))
      case Ok(None) => Lookup(c, true, Err(OtherErr))
      case Ok(Some(e)) => Lookup(c[key := e], true, Ok(e.value))
  }

  /** The master cache key. */
  function MasterKey(h: Header): string {
    h.appId
  }

  /** The router cache key: application id, underscore, processing id, where a
      null processing id concatenates as the empty string. */
  function RouterKey(appId: string, appProcessingId: Option<string>): (k: string)
    ensures |k| > |appId| && k[..|appId|] == appId && k[|appId|] == '_'
    ensures appProcessingId.Some? ==> k[|appId| + 1..] == appProcessingId.value
    ensures appProcessingId.None? ==> |k| == |appId| + 1
  {
    appId + "_" + (match appProcessingId case None => "" case Some(p) => p)
  }

  /** Two lookups within the expiry window: the second serves the record the
      first returned, without consulting the store. */
  lemma GetTwiceWithinTtl<V>(c: Cache<V>, key: string, now1: int, now2: int, store1: Fetched<V>, store2: Fetched<V>)
    requires Get(c, key, now1, store1).result.Ok?
    requires key in Get(c, key, now1, store1).cache && Get(c, key, now1, store1).cache[key].expires >= now2
    ensures !Get(Get(c, key, now1, store1).cache, key, now2, store2).fetched
    ensures Get(Get(c, key, now1, store1).cache, key, now2, store2) ==
      Lookup(Get(c, key, now1, store1).cache, false, Get(c, key, now1, store1).result)
  {
  }

  /** Freshness is inclusive: an entry whose expiry equals the clock is still served. */
  lemma ExpiryInstantStillServed<V>(c: Cache<V>, key: string, store: Fetched<V>)
    requires key in c
    ensures !Get(c, key, c[key].expires, store).fetched
    ensures Get(c, key, c[key].expires, store).result == Ok(c[key].value)
  {
  }

  /** A lookup touches no other key. */
  lemma GetKeepsOtherKeys<V>(c: Cache<V>, key: string, now: int, store: Fetched<V>, other: string)
    requires other != key
    ensures other in Get(c, key, now, store).cache <==> other in c
    ensures other in c ==> Get(c, key, now, store).cache[other] == c[other]
  {
  }

  /** The router key is not injective: two different (application id,
      processing id) pairs can share one cache entry. */
  lemma RouterKeyCollides()
    ensures RouterKey("a_b", Some("c")) == RouterKey("a", Some("b_c"))
    ensures RouterKey("a", None) == RouterKey("a", Some(""))
  {
  }

  /** The key determines the pair only once the application id is known: for
      a fixed application id, distinct non-null processing ids give distinct keys. */
  lemma RouterKeyInjectiveForFixedApp(appId: string, p1: string, p2: string)
    requires RouterKey(appId, Some(p1)) == RouterKey(appId, Some(p2))
    ensures p1 == p2
  {
    var k := RouterKey(appId, Some(p1));
    assert p1 == k[|appId| + 1..] == p2;
  }
}
